=== FILE: README.md ===
# Masterblog post engine, modelled in Dafny

This project models the post-collection engine of the Masterblog API, a small
Flask service for blog posts. The engine stores posts (`id`, `title`,
`content`, `author`, `date`) in one JSON file. It offers five operations:

- create a post;
- list posts, with optional sorting and pagination;
- update a post;
- delete a post;
- search posts.

In the source, all of this is written inline in the request handlers of
`backend/backend_app.py`. The model removes the HTTP and file plumbing and
keeps the logic as pure functions.

- Each operation takes the loaded collection (`seq<Post>`).
  - Create, update and delete return a `Result`: `Ok` with the payload and
    the collection to persist, or `Err` with a `Failure`.
  - The list endpoint returns a `Result` holding either the plain list or
    one page. It changes nothing, so it returns no collection.
  - The search endpoint cannot fail. It returns a `SearchResult` with the
    count, the results and the message.
- `Posts.Status` and `Posts.Message` give a `Failure`'s HTTP status (400
  or 404) and its exact error text.
- Request bodies are `Option<map<string, string>>`, where `None` stands for
  a JSON `null` body. Query parameters are
  `Option<string>`, where `None` means the parameter is absent from the URL.
- `datetime.now()` becomes a `today: Date` parameter.

Modules, one per file:

| file | module | what it holds |
|---|---|---|
| options.dfy | `Options` | `Option` |
| text.dfy | `Text` | ASCII lower-casing, Python string order, substring search, `str(n)` and `int(s)` |
| dates.dfy | `Dates` | `%Y-%m-%d` rendering and parsing, the 1900-01-01 fallback for the date sort key |
| posts.dfy | `Posts` | `Post`, `Failure`, `Result`, id assignment, lookup by id, the seed posts |
| store.dfy | `Store` | the recovery rules of `load_posts` and `save_posts` |
| sorting.dfy | `Sorting` | sort keys, and a stable insertion sort that is direction-aware |
| pagination.dfy | `Pagination` | defaults, parsing and checks for `page`/`per_page`, page count, page slice |
| query.dfy | `Query` | the list endpoint: validate, then sort, then paginate, then choose the response shape |
| mutations.dfy | `Mutations` | create, update, delete |
| search.dfy | `Search` | the search endpoint |

Three behaviours of the code are easy to misread:

- **Descending sort.** `sorted(..., reverse=True)` is stable, so a
  descending sort keeps posts with equal keys in input order. It is not the
  ascending sort reversed. `Sorting.SortPostsCorrect` proves this for both
  directions. `Sorting.DescendingIsNotReversedAscending` shows two posts
  with equal ids keeping their order under `desc`.
- **Create check.** The create branch checks only that the `title` and
  `content` keys are present. Empty values are accepted and stored
  (`Mutations.CreateAcceptsEmptyText`).
- **Unreadable dates.** A missing or unparsable date sorts as 1900-01-01.
  A valid date before 1900 therefore sorts earlier still.
  `Sorting.UndatedSortsFirst` states the order for dates from 1900 on.

## Model

| member | source | states |
|---|---|---|
| `Posts.NextId` | backend/backend_app.py:81-84 | The new id is above every existing id. It is 1 for an empty collection, and otherwise one more than some existing id. |
| `Posts.NextIdIsLeastFreshAbove` | backend/backend_app.py:84 | No id above all existing ids is smaller than the new id: it is the maximum plus one. |
| `Posts.NextIdPositive` | backend/backend_app.py:81-84 | If all ids are positive, the new id is positive. |
| `Posts.MaxId` | backend/backend_app.py:84 | `max(post["id"])` is at least every id and is one of the ids. |
| `Posts.Status` | backend/backend_app.py:124-130 | A failure answers 404 exactly when it is an unknown post id (:316, :356) and 400 for every other failure: the missing-key create (:129), the sort errors and the pagination errors. |
| `Posts.FindIndex` | backend/backend_app.py:306-310 | The lookup loop returns the first index holding the id, and `None` exactly when no post has it. |
| `Posts.FoundIsOnly` | backend/backend_app.py:346-350 | With unique ids, the index found is the only one that holds the id. |
| `Posts.NotFoundMessageIdentifiesId` | backend/backend_app.py:315 | Two "Post with id … not found." texts are equal only for the same id. |
| `Posts.Message` | backend/backend_app.py:152-270 | Each failure's `"error"` text, word for word as the handlers write it: the sort and pagination texts here, and the texts at :128, :315 and :355. The not-found text embeds the id. |
| `Posts.MessageIdentifiesFailure` | backend/backend_app.py:152-270 | No two different failures share an error text, counting those at :128, :315 and :355, so the text identifies the failure and, for not-found, the id. |
| `Posts.SeedWellFormed` | backend/backend_app.py:20-39 | The two seed posts have unique, positive ids (1 and 2), so the next id is 3. |
| `Store.Load` | backend/backend_app.py:56-72 | A missing file yields the seed posts and writes them. An empty or malformed file yields `[]` and writes nothing. A saved file yields its posts. |
| `Store.LoadAfterSave` | backend/backend_app.py:75-78 | The next load returns exactly what was saved, and that load writes nothing. |
| `Store.LoadIdempotent` | backend/backend_app.py:61-64 | Loading again from the state the first load left behind gives the same posts, so seeding happens at most once. |
| `Text.LowerIdempotent` | backend/backend_app.py:413 | Lower-casing an already lowered term changes nothing. |
| `Text.LexLeTotal` | backend/backend_app.py:222-226 | Any two strings are comparable under Python's string order. |
| `Text.LexLeTransitive` | backend/backend_app.py:222-226 | Python's string order is transitive. |
| `Text.LexLeAntisymmetric` | backend/backend_app.py:222-226 | Strings that are each `<=` the other are equal. |
| `Text.LexLeCharacterised` | backend/backend_app.py:222-226 | The recursive string order equals the textbook definition: either a prefix, or a smaller character at the first difference. |
| `Text.ContainsIff` | backend/backend_app.py:431-434 | The substring test holds exactly when the term occurs at some position of the field. |
| `Text.NatToStringValue` | backend/backend_app.py:422 | Reading the rendered digits of `n` back gives `n`. |
| `Text.ParseInt` | backend/backend_app.py:242-257 | `int(s)` succeeds exactly on an optional sign followed by digits. The sign of the result follows the sign of the text. |
| `Text.ParseIntOfNatToString` | backend/backend_app.py:242-245 | `int(str(n)) == n` for every `n >= 0`. |
| `Text.ParseIntOfNegated` | backend/backend_app.py:242-245 | `int("-" + str(n)) == -n`, which the positivity check then rejects. |
| `Dates.Parse` | backend/backend_app.py:203-206 | Every date `strptime("%Y-%m-%d")` accepts is a real calendar date written as `YYYY-MM-DD`. |
| `Dates.Format` | backend/backend_app.py:97 | `strftime("%Y-%m-%d")` gives ten characters with dashes at positions 4 and 7; `Dates.ParseFormat` shows it parses back to the same date. |
| `Dates.ParseFormat` | backend/backend_app.py:97 | A date written with `%Y-%m-%d` parses back to the same date. |
| `Dates.FormatParse` | backend/backend_app.py:203-206 | Text that parses is exactly the rendering of the date it parses to. |
| `Dates.OrdinalOrdersChronologically` | backend/backend_app.py:196-213 | The integer date key orders valid dates chronologically: year, then month, then day. |
| `Dates.SortDate` | backend/backend_app.py:198-209 | The date key never fails. It is the parsed date, or 1900-01-01 when the date is missing or unparsable. |
| `Dates.FallbackIsEarliest` | backend/backend_app.py:202-209 | The key of a missing or unparsable date is no later than any valid date from 1900 on. |
| `Sorting.ParseField` | backend/backend_app.py:149 | A `sort` value is accepted exactly when it is one of `id, title, content, author, date`. |
| `Sorting.FieldNameRoundTrip` | backend/backend_app.py:168 | Field names and sort fields correspond one to one. |
| `Sorting.KeyOfByField` | backend/backend_app.py:196-226 | The key of each field. `id` is the number itself. `date` is the chronological number of the effective date (parsed, or 1900-01-01), which is always a valid date. `title`, `content` and `author` are the lowered text, and a missing author is `""`. |
| `Sorting.InOrderTotal` | backend/backend_app.py:211-226 | Any two keys can be ordered, in either direction. |
| `Sorting.InOrderTransitive` | backend/backend_app.py:211-226 | The key order is transitive in both directions. |
| `Sorting.InOrderAntisymmetric` | backend/backend_app.py:211-226 | Keys that can each precede the other are equal. |
| `Sorting.SortPosts` | backend/backend_app.py:211-226 | The `sorted(...)` call: each post is inserted after every earlier post with an equal key. Its own contract keeps the length. That the result is ordered, a permutation and stable is stated by `Sorting.SortPostsSorted`, `Sorting.SortPostsPermutes` and `Sorting.SortPostsStable`. |
| `Sorting.DateKeyChronological` | backend/backend_app.py:196-213 | Sorting by date compares the effective dates chronologically. |
| `Sorting.UndatedSortsFirst` | backend/backend_app.py:196-213 | In an ascending date sort, a post with a missing or unreadable date goes no later than a post dated 1900-01-01 or after. |
| `Sorting.SortPostsSorted` | backend/backend_app.py:211-226 | The sort output is ordered: non-decreasing keys for `asc`, non-increasing for `desc`. |
| `Sorting.SortPostsPermutes` | backend/backend_app.py:211-226 | The sort output is a permutation of the input. |
| `Sorting.SortPostsStable` | backend/backend_app.py:211-226 | For each key, the posts with that key appear in the output in their input order. This holds in both directions. |
| `Sorting.SortPostsCorrect` | backend/backend_app.py:194-226 | The sort output is ordered, is a permutation of the input, and is stable. |
| `Sorting.DescendingIsNotReversedAscending` | backend/backend_app.py:194 | Two posts with the same id keep their input order under `desc`, not the reverse of `asc`. |
| `Pagination.CeilDiv` | backend/backend_app.py:275-276 | `total_pages` is the least count of `per_page`-sized pages that covers all posts. |
| `Pagination.DefaultPerPage` | backend/backend_app.py:239-240 | A missing `per_page` becomes the number of posts, or 10 when there are none, so it is always at least 1. |
| `Pagination.RequestedInt` | backend/backend_app.py:234-246 | An absent parameter takes its default. A present one, even the empty text, must be an integer literal. |
| `Pagination.PageSlice` | backend/backend_app.py:278-282 | A page holds at most `per_page` consecutive posts, starting at `(page-1)*per_page`. It is empty past the end of the list. |
| `Pagination.PageSliceWithin` | backend/backend_app.py:282 | Every post on a page comes from the list. |
| `Pagination.Paginate` | backend/backend_app.py:229-293 | A page comes back exactly when both parameters, once defaulted, are integers of at least 1. Otherwise the non-integer error comes exactly when a parameter is not an integer, and the non-positive error exactly when both are integers but one is below 1. On success the page reports the parsed values, `total_posts == len(list)`, the page count and the slice. |
| `Pagination.PaginatedPage` | backend/backend_app.py:272-293 | Every successful page satisfies `total_posts == len`, `(total_pages-1)*per_page < len <= total_pages*per_page`, and `len(results) <= per_page`. Its results are exactly `list[(page-1)*per_page : page*per_page]`. |
| `Pagination.PastLastPageIsEmpty` | backend/backend_app.py:278-293 | On any page of the list, which every successful answer is by `Pagination.PaginatedPage`, a `page` past `total_pages` has empty `results` and still reports the full `total_posts`. |
| `Pagination.PagesUpToLastAreNonEmpty` | backend/backend_app.py:275-282 | Every page from 1 to `total_pages` holds at least one post. |
| `Pagination.PagesCoverList` | backend/backend_app.py:272-282 | Reading pages 1 to `total_pages` in turn gives the whole list, in order. |
| `Pagination.DefaultPagination` | backend/backend_app.py:234-240 | With no `page` and no `per_page`, the whole list is page 1. `per_page` is the list length, or 10 when the list is empty. |
| `Query.ValidateSort` | backend/backend_app.py:152-191 | Sorting passes exactly when neither `sort` nor `direction` is given, or both are, naming a known field and `asc`/`desc`. Otherwise the errors come in the source's order: exactly one of the two given, then an unknown field, then an unknown direction. A success carries the named field and direction. |
| `Query.Given` | backend/backend_app.py:152 | A query parameter counts as given only when it is present and non-empty, which is Python truthiness of `request.args.get(...)`. |
| `Query.AnyGiven` | backend/backend_app.py:233 | The paged shape is chosen when any of the four parameters is given. |
| `Query.EmptyParametersAreNotGiven` | backend/backend_app.py:233 | Parameters that are present but empty select nothing: neither the sort test (:152) nor this one holds, and the plain stored list comes back (:296). |
| `Query.EmptyPageWithSortIsNotAnInteger` | backend/backend_app.py:235-257 | An empty `page` next to a valid sort is not defaulted, because it is present, and `int("")` fails with the non-integer error. |
| `Query.Arranged` | backend/backend_app.py:193-226 | The list handed to pagination is a permutation of the stored posts. It is sorted when sorting was asked for, and in stored order otherwise. |
| `Query.List` | backend/backend_app.py:137-296 | With no parameter given, the plain stored list comes back. A sort error wins over any pagination error. Once sorting passes and a parameter is given, the answer is a page exactly when the pagination parameters are accepted, and the error is the non-integer one exactly when they are not integers. A page is the page of the arranged list that `page`/`per_page` request, with `current_page` and `per_page` echoing the request, and it is drawn from the stored posts. |
| `Query.ListComposesStages` | backend/backend_app.py:229-293 | Once the sort parameters pass and some parameter is given, the answer is exactly the pagination of the arranged list: its page on success, its failure otherwise. |
| `Query.SortOnlyReturnsWholeSortedList` | backend/backend_app.py:233-240 | With only `sort` and `direction`, the answer is page 1 holding the whole sorted list. `per_page` is the length, or 10 when empty. |
| `Query.UnsortedPagesFollowStoredOrder` | backend/backend_app.py:146 | Pagination without sorting cuts pages from the posts in stored order. |
| `Query.SeedSortedByIdDescending` | backend/backend_app.py:20-39 | For the seed posts, `sort=id&direction=desc` gives `{total_posts: 2, total_pages: 1, current_page: 1, per_page: 2, results: [post 2, post 1]}`. |
| `Mutations.Create` | backend/backend_app.py:87-134 | A body without both keys is rejected with 400 and nothing is appended. Otherwise exactly one post is appended at the end. Its id is above every existing id, and 1 when the collection is empty. Title and content come from the body. `author` defaults to "Anonymous" and `date` to today. |
| `Mutations.AcceptsCreate` | backend/backend_app.py:125 | The create guard: a non-empty body holding both a `title` and a `content` key. Values are not inspected. |
| `Mutations.CreateAcceptsEmptyText` | backend/backend_app.py:125-133 | A body with an empty title and empty content is accepted, and the post stores them as given. |
| `Mutations.CreateRejectsMissingKeys` | backend/backend_app.py:125-130 | A body missing `content`, one missing `title`, an empty object, or a JSON `null` body gives the 400 error. |
| `Mutations.CreatePreservesIdInvariant` | backend/backend_app.py:81-104 | Creating a post keeps ids unique and positive. |
| `Mutations.CreatedDateIsToday` | backend/backend_app.py:97 | A post created without a date carries today's date, and that date parses back to today. |
| `Mutations.ApplyChanges` | backend/backend_app.py:366-391 | Each field present in the body replaces the stored one, and absent fields stay. The id never changes. The change flag is set exactly when the post differs afterwards. |
| `Mutations.ApplyChangesIdempotent` | backend/backend_app.py:366-391 | Applying the same body a second time changes nothing and sets no flag. |
| `Mutations.Update` | backend/backend_app.py:335-398 | An unknown id gives a 404 and nothing else. Otherwise only the first post with the id is rewritten, and every other post is untouched. A save happens exactly when the collection changed. |
| `Mutations.UpdateWithStoredValuesDoesNotSave` | backend/backend_app.py:393-398 | Resending a post's stored values causes no save and returns the post unchanged. |
| `Mutations.UpdateIdempotent` | backend/backend_app.py:364-395 | A repeated update saves nothing. |
| `Mutations.UpdatePreservesIds` | backend/backend_app.py:361-391 | Updating never changes an id, so unique ids stay unique. |
| `Mutations.Delete` | backend/backend_app.py:299-332 | An unknown id gives a 404. Otherwise the result is the collection with exactly the first post bearing the id removed, the rest in order, and the deletion message. |
| `Mutations.DeletedMessage` | backend/backend_app.py:327 | The success text holds the id in decimal between "Post with id " and " has been deleted successfully.". |
| `Mutations.DeletedMessageIdentifiesId` | backend/backend_app.py:327 | Two success texts are equal only for the same id. |
| `Mutations.DeleteIsFilterUnderUniqueIds` | backend/backend_app.py:306-321 | With unique ids, deleting keeps exactly the posts whose id differs. |
| `Mutations.DeletePreservesUniqueIds` | backend/backend_app.py:320-321 | Deleting keeps ids unique, and with unique ids no post with the deleted id remains. |
| `Mutations.CreateThenDelete` | backend/backend_app.py:87-104 | Deleting a post right after creating it restores the original collection. |
| `Search.FilterMembers` | backend/backend_app.py:426-436 | A post is in the results exactly when it is stored and the term occurs in its lowered title, content, author or date. |
| `Search.FilterIsSubsequence` | backend/backend_app.py:426-436 | The results keep the stored order. |
| `Search.EmptyTermMatchesAll` | backend/backend_app.py:416-424 | Filtering by the empty term would keep every post. |
| `Search.CountMessageRoundTrip` | backend/backend_app.py:439-446 | The count can be read back from its message ("0 results found.", "1 result found.", "{n} results found."). |
| `Search.CountMessageInjective` | backend/backend_app.py:439-446 | Different counts give different messages. |
| `Search.CountMessage` | backend/backend_app.py:439-446 | The message is "0 results found." for no result, "1 result found." for one, and "{count} results found." with the decimal count otherwise. |
| `Search.Matches` | backend/backend_app.py:430-435 | A post matches when the lowered term is a substring of its lowered title, content, author or date. A missing author or date reads as `""`. |
| `Search.MissingFieldsNeverMatch` | backend/backend_app.py:433-434 | A post without author or date matches a non-empty term exactly when its title or content does. |
| `Search.Filter` | backend/backend_app.py:426-436 | Every matching post appears in the results as often as it is stored, and no other post appears. |
| `Search.Search` | backend/backend_app.py:401-449 | `count == len(results)`. An empty term returns every post with the message "{len} results found.". Otherwise the results are exactly the matching posts, each as often as it is stored, in stored order, with the singular or plural message. |
| `Search.EmptySearchReturnsEverything` | backend/backend_app.py:413-424 | A missing query returns what the empty filter returns, which is every post (`Search.EmptyTermMatchesAll`). An empty query reports `count == len(collection)`. |
| `Search.EmptySearchOfOnePostIsPlural` | backend/backend_app.py:416-446 | With one post and no term, the message is "1 results found.". A filtered search with one hit says "1 result found.". |
| `Search.SearchIgnoresTermCase` | backend/backend_app.py:413 | Upper case in the query does not change the results. |

## Left out

- Flask routing, `jsonify`, CORS, the Swagger UI blueprint and `app.run`
  (backend/backend_app.py:1-54, 452-453) are framework wiring. Success
  statuses (200, 201) are not modelled. Failure statuses are modelled by
  `Posts.Status`.
- File I/O is not modelled: path handling, `exists`, `read_text`,
  `write_text`, `mkdir` and JSON encoding and decoding. `Store.StoredFile`
  names the four states `load_posts` tells apart. An I/O error is not
  modelled. JSON that parses but is not a list of posts is not modelled.
- The global `POSTS` mirror and the reloads at the top of each handler are
  not modelled. Each operation receives the freshly loaded collection.
  Concurrent requests are not modelled.
- `datetime.now()` is the `today` parameter. `%Y` is zero-padded to four
  digits. Some platforms render years before 1000 unpadded; such a "now" is
  not a concern here.
- `Mutations.CreateRejectsMissingKeys`: its `None` body is a JSON `null`
  body, the only body-level input that reaches the check at :125-130. A
  request without a decodable JSON body is refused by Flask inside
  `request.json` (:123), before that check: a 400, or a 415 when the
  content type is not JSON from Werkzeug 2.3 on. For update the same
  refusal comes from `request.get_json()` (:360), after the 404 check at
  :353. Those framework answers are not modelled.
- Only string values are modelled in request bodies. A JSON `null`, number
  or list as a field value is out of scope. So is a body that is a JSON
  list rather than an object.
- A stored record without `id`, `title` or `content` is not modelled.
  - `post["id"]` is indexed unconditionally by `get_new_id`, `delete_post`
    and `update_post` (backend/backend_app.py:84, 308, 348), so a record
    without an id makes those raise.
  - The sort keys (:217, :224) and the search (:431-434) read every field
    with `post.get(...)`. The search would still run on a record without a
    title or content.
  - `update_post` compares `title` and `content` with `post[...]` only when
    the body names them (:370, :376).
  - Since `id`, `title` and `content` are always present in the model, the
    sort's default of 0 for a missing id and the search's `""` for a
    missing title or content never apply. A missing `author` or `date` is
    modelled (`Option`).
- `load_posts` returns the module-level `DEFAULT_POSTS` list itself when
  the file is missing (:61-64). That list object is not modelled.
  - A later delete (`POSTS.remove`, :320) or update (the field writes at
    :372-390) changes `DEFAULT_POSTS` in place.
  - A later load that again finds no file then seeds from the changed list.
  - The model seeds from the fixed `SeedPosts` every time, because its
    values have no identity to share. The reseed needs the file to vanish
    while the process runs.
- `Dates.Parse`: reads only the zero-padded `YYYY-MM-DD` form in ASCII
  digits. `strptime` also accepts unpadded fields such as `2024-5-1`, a
  space-padded day such as `2024-05- 5` (its `%d` pattern allows a leading
  space), and non-ASCII decimal digits such as `٢٠٢٤-05-15` (`\d` matches
  any Unicode digit). The source sorts such posts by their real date; the
  model sorts them as 1900-01-01.
- `Text.ParseInt`: accepts only an optional sign followed by ASCII digits,
  because Python's `int()` also allows surrounding whitespace, `_` digit
  separators and non-ASCII digits. It also has no length limit: from
  CPython 3.11 (and 3.10.7) `int()` raises `ValueError` on a decimal text of
  more than 4300 digits, so the source answers such a `page` or `per_page`
  with the "must be valid integers" 400, while the model reads the number.
- `Text.Lower`: lower-cases ASCII letters only, because full Unicode case
  mapping is out of scope. Substring search and text sort keys inherit this.
- `Pagination.CeilDiv`: computes `total_pages` by exact integer ceiling
  division, while the source computes `math.ceil(total / per_page)` on
  floats. The two differ when rounding the quotient to a float moves it onto
  or across an integer. In particular, when
  `per_page` exceeds the collection size by a factor of about 4·10^323, the
  true division underflows to `0.0` and the source reports `total_pages: 0`
  for a non-empty collection, where the model reports 1. A quotient just
  above an integer that rounds down to it (possible only for collections of
  about 2^53 posts or more) also makes the source report one page fewer.

=== FILE: dates.dfy ===
/** Calendar dates as the post engine reads and writes them: the
    `YYYY-MM-DD` text produced by `strftime("%Y-%m-%d")` for a new post, the
    `strptime` parse used by the date sort key, and the 1900-01-01 fallback
    for missing or unreadable dates. */
module Dates {
  import opened Options
  import opened Text

  datatype Date = Date(year: int, month: int, day: int)

  predicate IsLeapYear(y: int) {
    y % 4 == 0 && (y % 100 != 0 || y % 400 == 0)
  }

  function DaysInMonth(y: int, m: int): (r: int)
    requires 1 <= m <= 12
    ensures 28 <= r <= 31
  {
    if m == 2 then (if IsLeapYear(y) then 29 else 28)
    else if m == 4 || m == 6 || m == 9 || m == 11 then 30
    else 31
  }

  /** The dates Python's `datetime.date` can represent. */
  predicate Valid(d: Date) {
    1 <= d.year <= 9999 && 1 <= d.month <= 12 && 1 <= d.day <= DaysInMonth(d.year, d.month)
  }

  /** The date an unreadable or missing date sorts as. */
  const Fallback := Date(1900, 1, 1)

  /** Chronological order, field by field. */
  predicate NotAfter(a: Date, b: Date) {
    a.year < b.year
    || (a.year == b.year && (a.month < b.month || (a.month == b.month && a.day <= b.day)))
  }

  /** A single integer per date, used as the sort key. */
  function Ordinal(d: Date): int {
    d.year * 10000 + d.month * 100 + d.day
  }

  lemma OrdinalBounds(d: Date)
    requires Valid(d)
    ensures d.year * 10000 + 101 <= Ordinal(d) <= d.year * 10000 + 1231
  {
  }

  /** Comparing ordinals is comparing dates chronologically. */
  lemma OrdinalOrdersChronologically(a: Date, b: Date)
    requires Valid(a) && Valid(b)
    ensures Ordinal(a) <= Ordinal(b) <==> NotAfter(a, b)
  {
    OrdinalBounds(a);
    OrdinalBounds(b);
    if a.year < b.year {
      assert a.year * 10000 + 10000 <= b.year * 10000;
    } else if a.year > b.year {
      assert b.year * 10000 + 10000 <= a.year * 10000;
    }
  }

  // ---------------------------------------------------------------------------
  // Rendering: strftime("%Y-%m-%d")
  // ---------------------------------------------------------------------------

  function Pow10(w: nat): (r: nat)
    ensures r >= 1
  {
    if w == 0 then 1 else 10 * Pow10(w - 1)
  }

  /** The last `w` decimal digits of `n`, zero-padded on the left. */
  function Digits(n: nat, w: nat): (r: string)
    ensures |r| == w && AllDigits(r)
  {
    if w == 0 then [] else Digits(n / 10, w - 1) + [DigitChar(n % 10)]
  }

  lemma {:induction false} DigitsValueOfPadded(n: nat, w: nat)
    requires n < Pow10(w)
    ensures DigitsValue(Digits(n, w)) == n
  {
    if w > 0 {
      var high := n / 10;
      assert n == high * 10 + n % 10;
      assert high < Pow10(w - 1) by {
        assert n < 10 * Pow10(w - 1);
      }
      DigitsValueOfPadded(high, w - 1);
      var s := Digits(n, w);
      assert s == Digits(high, w - 1) + [DigitChar(n % 10)];
      assert s[..|s| - 1] == Digits(high, w - 1);
      assert DigitsValue(s) == DigitsValue(Digits(high, w - 1)) * 10 + n % 10;
    }
  }

  function Format(d: Date): (r: string)
    requires Valid(d)
    ensures |r| == 10 && r[4] == '-' && r[7] == '-'
  {
    Digits(d.year, 4) + "-" + Digits(d.month, 2) + "-" + Digits(d.day, 2)
  }

  // ---------------------------------------------------------------------------
  // Parsing: strptime(s, "%Y-%m-%d")
  // ---------------------------------------------------------------------------

  /** `strptime(s, "%Y-%m-%d").date()`, or `None` where it raises
      `ValueError`. Only the zero-padded form is read. */
  function Parse(s: string): (r: Option<Date>)
    ensures r.Some? ==> Valid(r.value)
    ensures r.Some? ==> |s| == 10 && s[4] == '-' && s[7] == '-'
  {
    if |s| == 10 && s[4] == '-' && s[7] == '-'
       && AllDigits(s[..4]) && AllDigits(s[5..7]) && AllDigits(s[8..])
    then
      var d := Date(DigitsValue(s[..4]), DigitsValue(s[5..7]), DigitsValue(s[8..]));
      if Valid(d) then Some(d) else None
    else None
  }

  /** Every date the engine writes reads back as the same date. */
  lemma ParseFormat(d: Date)
    requires Valid(d)
    ensures Parse(Format(d)) == Some(d)
  {
    var s := Format(d);
    assert s[..4] == Digits(d.year, 4);
    assert s[5..7] == Digits(d.month, 2);
    assert s[8..] == Digits(d.day, 2);
    DigitsValueOfPadded(d.year, 4);
    DigitsValueOfPadded(d.month, 2);
    DigitsValueOfPadded(d.day, 2);
  }

  /** A text that does parse is the rendering of what it parses to. */
  lemma FormatParse(s: string)
    requires Parse(s).Some?
    ensures Format(Parse(s).value) == s
  {
    var d := Parse(s).value;
    DigitsOfValue(s[..4]);
    DigitsOfValue(s[5..7]);
    DigitsOfValue(s[8..]);
    assert s == s[..4] + "-" + s[5..7] + "-" + s[8..];
  }

  lemma {:induction false} DigitsOfValue(s: string)
    requires AllDigits(s)
    ensures DigitsValue(s) < Pow10(|s|)
    ensures Digits(DigitsValue(s), |s|) == s
    decreases |s|
  {
    if |s| > 0 {
      var init := s[..|s| - 1];
      DigitsOfValue(init);
      var v := DigitsValue(s);
      assert v / 10 == DigitsValue(init) && v % 10 == DigitValue(s[|s| - 1]);
      assert s == init + [s[|s| - 1]];
    }
  }

  // ---------------------------------------------------------------------------
  // The date sort key
  // ---------------------------------------------------------------------------

  /** The key of a post's `date` field when sorting by date: the parsed date,
      or 1900-01-01 when the field is missing or does not parse. Never fails. */
  function SortDate(date: Option<string>): (r: Date)
    ensures Valid(r)
    ensures date.Some? && Parse(date.value).Some? ==> r == Parse(date.value).value
    ensures date.None? || Parse(date.value).None? ==> r == Fallback
  {
    match date
    case None => Fallback
    case Some(s) =>
      match Parse(s)
      case Some(d) => d
      case None => Fallback
  }

  /** A missing or unreadable date sorts no later than any real date from
      1900 on. */
  lemma FallbackIsEarliest(date: Option<string>, d: Date)
    requires date.None? || Parse(date.value).None?
    requires Valid(d) && d.year >= 1900
    ensures Ordinal(SortDate(date)) <= Ordinal(d)
  {
    OrdinalOrdersChronologically(Fallback, d);
  }
}

=== FILE: mutations.dfy ===
/** The three mutating endpoints: create (`POST` on the collection),
    update (`PUT` on one post) and delete (`DELETE` on one post). Each takes
    the loaded collection and returns the collection to persist. */
module Mutations {
  import opened Options
  import opened Text
  import opened Dates
  import opened Posts

  /** `key in data` for a request body that may be a JSON `null`. */
  predicate HasKey(body: Body, key: string) {
    body.Some? && key in body.value
  }

  /** `data.get(key, default)`. */
  function FieldOr(body: Body, key: string, default: string): string {
    if HasKey(body, key) then body.value[key] else default
  }

  /** The author a post gets when the create body names none. */
  const DefaultAuthor := "Anonymous"

  // ---------------------------------------------------------------------------
  // Create
  // ---------------------------------------------------------------------------

  /** The create branch's guard: a non-empty body with both a `title` and a
      `content` key. The values themselves are not inspected. */
  predicate AcceptsCreate(body: Body) {
    body.Some? && |body.value| > 0 && "title" in body.value && "content" in body.value
  }

  datatype Created = Created(posts: seq<Post>, post: Post)

  /** Creates a post from the request body; `today` stands for
      `datetime.now()`. On success the new post is appended and the result
      is the collection to save. */
  function Create(posts: seq<Post>, body: Body, today: Date): (r: Result<Created>)
    requires Valid(today)
    ensures r.Err? <==> !AcceptsCreate(body)
    ensures r.Err? ==> r.failure == MissingTitleOrContent
    ensures r.Ok? ==> r.value.posts == posts + [r.value.post]
    ensures r.Ok? ==> forall i :: 0 <= i < |posts| ==> posts[i].id < r.value.post.id
    ensures r.Ok? && |posts| == 0 ==> r.value.post.id == 1
    ensures r.Ok? && |posts| > 0 ==> exists i :: 0 <= i < |posts| && r.value.post.id == posts[i].id + 1
    ensures r.Ok? ==>
      && r.value.post.title == body.value["title"]
      && r.value.post.content == body.value["content"]
      && r.value.post.author == Some(if "author" in body.value then body.value["author"] else DefaultAuthor)
      && r.value.post.date == Some(if "date" in body.value then body.value["date"] else Format(today))
  {
    if !AcceptsCreate(body) then Err(MissingTitleOrContent)
    else
      var post := Post(
        NextId(posts),
        body.value["title"],
        body.value["content"],
        Some(FieldOr(body, "author", DefaultAuthor)),
        Some(FieldOr(body, "date", Format(today))));
      Ok(Created(posts + [post], post))
  }

  /** The guard checks keys, not values: empty title and content are
      accepted and stored as given. */
  lemma CreateAcceptsEmptyText(posts: seq<Post>, today: Date)
    requires Valid(today)
    ensures var r := Create(posts, Some(map["title" := "", "content" := ""]), today);
      r.Ok? && r.value.post.title == "" && r.value.post.content == ""
  {
  }

  /** A body lacking either key, an empty object, or a JSON `null` body is
      rejected and the collection is left alone. */
  lemma CreateRejectsMissingKeys(posts: seq<Post>, title: string, today: Date)
    requires Valid(today)
    ensures Create(posts, Some(map["title" := title]), today) == Err(MissingTitleOrContent)
    ensures Create(posts, Some(map["content" := title]), today) == Err(MissingTitleOrContent)
    ensures Create(posts, Some(map[]), today) == Err(MissingTitleOrContent)
    ensures Create(posts, None, today) == Err(MissingTitleOrContent)
  {
  }

  /** Creating keeps ids unique and positive. */
  lemma CreatePreservesIdInvariant(posts: seq<Post>, body: Body, today: Date)
    requires Valid(today) && Create(posts, body, today).Ok?
    requires IdsUnique(posts) && IdsPositive(posts)
    ensures IdsUnique(Create(posts, body, today).value.posts)
    ensures IdsPositive(Create(posts, body, today).value.posts)
  {
    NextIdPositive(posts);
  }

  /** A post created without a `date` carries today's date, which reads back
      as today when sorting by date. */
  lemma CreatedDateIsToday(posts: seq<Post>, body: Body, today: Date)
    requires Valid(today) && Create(posts, body, today).Ok?
    requires !HasKey(body, "date")
    ensures Create(posts, body, today).value.post.date.Some?
    ensures Parse(Create(posts, body, today).value.post.date.value) == Some(today)
  {
    ParseFormat(today);
  }

  // ---------------------------------------------------------------------------
  // Update
  // ---------------------------------------------------------------------------

  /** The field-by-field overwrite of one post: each of the four fields is
      replaced when the body has that key with a different value. The flag
      says whether anything was replaced. */
  function ApplyChanges(p: Post, body: Body): (r: (Post, bool))
    ensures r.0.id == p.id
    ensures r.0.title == FieldOr(body, "title", p.title)
    ensures r.0.content == FieldOr(body, "content", p.content)
    ensures r.0.author == if HasKey(body, "author") then Some(body.value["author"]) else p.author
    ensures r.0.date == if HasKey(body, "date") then Some(body.value["date"]) else p.date
    ensures r.1 <==> r.0 != p
  {
    var m := if body.Some? then body.value else map[];
    var titleChanged := "title" in m && p.title != m["title"];
    var contentChanged := "content" in m && p.content != m["content"];
    var authorChanged := "author" in m && p.author != Some(m["author"]);
    var dateChanged := "date" in m && p.date != Some(m["date"]);
    var q := p.(
      title := if titleChanged then m["title"] else p.title,
      content := if contentChanged then m["content"] else p.content,
      author := if authorChanged then Some(m["author"]) else p.author,
      date := if dateChanged then Some(m["date"]) else p.date);
    (q, titleChanged || contentChanged || authorChanged || dateChanged)
  }

  /** Applying a body twice changes nothing the second time. */
  lemma ApplyChangesIdempotent(p: Post, body: Body)
    ensures ApplyChanges(ApplyChanges(p, body).0, body) == (ApplyChanges(p, body).0, false)
  {
  }

  datatype Updated = Updated(posts: seq<Post>, post: Post, saved: bool)

  /** Updates the first post with `id`. `saved` says whether the handler
      writes the collection back. */
  function Update(posts: seq<Post>, id: nat, body: Body): (r: Result<Updated>)
    ensures r.Err? <==> !HasId(posts, id)
    ensures r.Err? ==> r.failure == PostNotFound(id)
    ensures r.Ok? ==>
      && FindIndex(posts, id).Some?
      && var i := FindIndex(posts, id).value;
         && |r.value.posts| == |posts|
         && r.value.posts[i] == r.value.post
         && r.value.post == ApplyChanges(posts[i], body).0
         && (forall j :: 0 <= j < |posts| && j != i ==> r.value.posts[j] == posts[j])
    ensures r.Ok? ==> r.value.post.id == id
    ensures r.Ok? ==> (r.value.saved <==> r.value.posts != posts)
  {
    match FindIndex(posts, id)
    case None => Err(PostNotFound(id))
    case Some(i) =>
      var (updated, changed) := ApplyChanges(posts[i], body);
      var next := posts[i := updated];
      assert changed ==> next[i] != posts[i];
      Ok(Updated(next, updated, changed))
  }

  /** Resending a post's stored values triggers no save and returns the post
      as it was. */
  lemma UpdateWithStoredValuesDoesNotSave(posts: seq<Post>, id: nat, p: Post)
    requires FindIndex(posts, id).Some?
    requires p == posts[FindIndex(posts, id).value]
    requires p.author.Some? && p.date.Some?
    ensures var body := Some(map["title" := p.title, "content" := p.content,
                                 "author" := p.author.value, "date" := p.date.value]);
      Update(posts, id, body) == Ok(Updated(posts, p, false))
  {
  }

  /** Sending the same update twice saves at most once. */
  lemma UpdateIdempotent(posts: seq<Post>, id: nat, body: Body)
    requires Update(posts, id, body).Ok?
    ensures var first := Update(posts, id, body).value;
      Update(first.posts, id, body) == Ok(Updated(first.posts, first.post, false))
  {
    var first := Update(posts, id, body).value;
    var i := FindIndex(posts, id).value;
    assert FindIndex(first.posts, id) == Some(i) by {
      assert forall j :: 0 <= j < i ==> first.posts[j] == posts[j];
    }
    ApplyChangesIdempotent(posts[i], body);
    assert first.posts[i := first.post] == first.posts;
  }

  /** Updating never changes an id, so the id invariant survives. */
  lemma UpdatePreservesIds(posts: seq<Post>, id: nat, body: Body)
    requires Update(posts, id, body).Ok?
    ensures var next := Update(posts, id, body).value.posts;
      forall j :: 0 <= j < |posts| ==> next[j].id == posts[j].id
    ensures IdsUnique(posts) ==> IdsUnique(Update(posts, id, body).value.posts)
  {
  }

  // ---------------------------------------------------------------------------
  // Delete
  // ---------------------------------------------------------------------------

  datatype Deleted = Deleted(posts: seq<Post>, message: string)

  /** The success text of a delete; the decimal id can be read back out of it. */
  function DeletedMessage(id: nat): (m: string)
    ensures |m| > |"Post with id "| + |" has been deleted successfully."|
    ensures NatToString(id) == m[|"Post with id "|..|m| - |" has been deleted successfully."|]
  {
    "Post with id " + NatToString(id) + " has been deleted successfully."
  }

  /** Distinct ids give distinct success texts. */
  lemma DeletedMessageIdentifiesId(a: nat, b: nat)
    requires DeletedMessage(a) == DeletedMessage(b)
    ensures a == b
  {
    NatToStringInjective(a, b);
  }

  /** Removes the first post with `id`; everything else keeps its order. */
  function Delete(posts: seq<Post>, id: nat): (r: Result<Deleted>)
    ensures r.Err? <==> !HasId(posts, id)
    ensures r.Err? ==> r.failure == PostNotFound(id)
    ensures r.Ok? ==> exists i :: FirstWithId(posts, id, i) && r.value.posts == posts[..i] + posts[i + 1..]
    ensures r.Ok? ==> |r.value.posts| == |posts| - 1
    ensures r.Ok? ==> r.value.message == DeletedMessage(id)
  {
    match FindIndex(posts, id)
    case None => Err(PostNotFound(id))
    case Some(i) => Ok(Deleted(posts[..i] + posts[i + 1..], DeletedMessage(id)))
  }

  /** The posts whose id is not `id`, in order. */
  function WithoutId(posts: seq<Post>, id: int): (r: seq<Post>)
    ensures |r| <= |posts|
  {
    if |posts| == 0 then []
    else (if posts[0].id == id then [] else [posts[0]]) + WithoutId(posts[1..], id)
  }

  lemma {:induction false} WithoutIdAppend(a: seq<Post>, b: seq<Post>, id: int)
    ensures WithoutId(a + b, id) == WithoutId(a, id) + WithoutId(b, id)
    decreases |a|
  {
    if |a| == 0 {
      assert a + b == b;
    } else {
      WithoutIdAppend(a[1..], b, id);
      var ab := a + b;
      assert ab[0] == a[0];
      assert ab[1..] == a[1..] + b;
      var h := if a[0].id == id then [] else [a[0]];
      assert WithoutId(ab, id) == h + WithoutId(a[1..] + b, id);
      assert WithoutId(a, id) == h + WithoutId(a[1..], id);
    }
  }

  lemma {:induction false} WithoutIdAbsent(posts: seq<Post>, id: int)
    requires forall j :: 0 <= j < |posts| ==> posts[j].id != id
    ensures WithoutId(posts, id) == posts
    decreases |posts|
  {
    if |posts| > 0 {
      WithoutIdAbsent(posts[1..], id);
      assert posts == [posts[0]] + posts[1..];
    }
  }

  /** No post the filter keeps has the id. */
  lemma {:induction false} WithoutIdDropsId(posts: seq<Post>, id: int)
    ensures !HasId(WithoutId(posts, id), id)
    decreases |posts|
  {
    if |posts| > 0 {
      WithoutIdDropsId(posts[1..], id);
      var h := if posts[0].id == id then [] else [posts[0]];
      var r := WithoutId(posts, id);
      assert r == h + WithoutId(posts[1..], id);
      forall j | 0 <= j < |r| ensures r[j].id != id {
        if j >= |h| {
          assert r[j] == WithoutId(posts[1..], id)[j - |h|];
        }
      }
    }
  }

  /** With unique ids, deleting is filtering: the result is exactly the
      posts whose id differs. */
  lemma DeleteIsFilterUnderUniqueIds(posts: seq<Post>, id: nat)
    requires IdsUnique(posts) && Delete(posts, id).Ok?
    ensures Delete(posts, id).value.posts == WithoutId(posts, id)
  {
    var i := FindIndex(posts, id).value;
    assert Delete(posts, id).value.posts == posts[..i] + posts[i + 1..];
    forall j | i < j < |posts| ensures posts[j].id != id {
      assert posts[i].id != posts[j].id;
    }
    RemoveFirstIsFilter(posts, id, i);
  }

  lemma {:induction false} RemoveFirstIsFilter(posts: seq<Post>, id: int, i: nat)
    requires i < |posts| && posts[i].id == id
    requires forall j :: 0 <= j < |posts| && j != i ==> posts[j].id != id
    ensures posts[..i] + posts[i + 1..] == WithoutId(posts, id)
    decreases i
  {
    var tail := posts[1..];
    if i == 0 {
      assert forall j :: 0 <= j < |tail| ==> tail[j] == posts[j + 1];
      WithoutIdAbsent(tail, id);
      assert WithoutId(posts, id) == WithoutId(tail, id);
      assert posts[..0] + posts[1..] == tail;
    } else {
      assert forall j :: 0 <= j < |tail| ==> tail[j] == posts[j + 1];
      RemoveFirstIsFilter(tail, id, i - 1);
      assert WithoutId(posts, id) == [posts[0]] + WithoutId(tail, id);
      assert [posts[0]] + (tail[..i - 1] + tail[i..]) == posts[..i] + posts[i + 1..];
    }
  }

  /** Deleting keeps ids unique, and under unique ids the id is gone. */
  lemma DeletePreservesUniqueIds(posts: seq<Post>, id: nat)
    requires IdsUnique(posts) && Delete(posts, id).Ok?
    ensures IdsUnique(Delete(posts, id).value.posts)
    ensures !HasId(Delete(posts, id).value.posts, id)
  {
    DeleteIsFilterUnderUniqueIds(posts, id);
    WithoutIdDropsId(posts, id);
    var i := FindIndex(posts, id).value;
    var rest := posts[..i] + posts[i + 1..];
    forall a, b | 0 <= a < b < |rest| ensures rest[a].id != rest[b].id {
      var a' := if a < i then a else a + 1;
      var b' := if b < i then b else b + 1;
      assert rest[a] == posts[a'] && rest[b] == posts[b'];
    }
  }

  /** Deleting a post just created gives back the collection it was
      created in. */
  lemma CreateThenDelete(posts: seq<Post>, body: Body, today: Date)
    requires Valid(today) && Create(posts, body, today).Ok?
    requires IdsPositive(posts)
    ensures var c := Create(posts, body, today).value;
      c.post.id >= 0 && Delete(c.posts, c.post.id) == Ok(Deleted(posts, DeletedMessage(c.post.id)))
  {
    var c := Create(posts, body, today).value;
    NextIdPositive(posts);
    assert c.posts == posts + [c.post];
    DeleteAppended(posts, c.post);
  }

  /** Deleting the id of a post appended with an id above all others
      removes exactly that post. */
  lemma DeleteAppended(posts: seq<Post>, p: Post)
    requires p.id >= 0
    requires forall j :: 0 <= j < |posts| ==> posts[j].id < p.id
    ensures Delete(posts + [p], p.id) == Ok(Deleted(posts, DeletedMessage(p.id)))
  {
    var all := posts + [p];
    assert forall j :: 0 <= j < |posts| ==> all[j].id != p.id;
    assert all[|posts|] == p;
    assert HasId(all, p.id);
    assert FindIndex(all, p.id) == Some(|posts|);
    assert all[..|posts|] + all[|posts| + 1..] == posts;
  }
}

=== FILE: options.dfy ===
/** The optional value used throughout the model: a JSON key that may be
    absent, a query parameter that may be missing, a parse that may fail. */
module Options {

  datatype Option<+T> = None | Some(value: T) {

    /** The carried value, or `default` when there is none (Python's `dict.get(key, default)`). */
    function GetOr(default: T): T {
      match this
      case Some(v) => v
      case None => default
    }
  }
}

=== FILE: pagination.dfy ===
/** The pagination stage of the list endpoint: defaulting and parsing of
    `page` / `per_page`, the page count, and the page slice. */
module Pagination {
  import opened Options
  import opened Text
  import opened Posts

  /** The paginated response object. */
  datatype Page = Page(
    totalPosts: nat,
    totalPages: nat,
    currentPage: int,
    perPage: int,
    results: seq<Post>)

  /** `math.ceil(total / per)`, computed on integers. */
  function CeilDiv(total: nat, per: int): (pages: nat)
    requires per >= 1
    ensures pages * per >= total
    ensures pages == 0 || (pages - 1) * per < total
  {
    var pages := (total + per - 1) / per;
    assert total + per - 1 == pages * per + (total + per - 1) % per;
    assert (pages - 1) * per == pages * per - per;
    pages
  }

  /** `per_page` when the request leaves it out: the length of the list, or
      10 for an empty list. */
  function DefaultPerPage(list: seq<Post>): (n: nat)
    ensures n >= 1
    ensures |list| > 0 ==> n == |list|
    ensures |list| == 0 ==> n == 10
  {
    if |list| > 0 then |list| else 10
  }

  /** A pagination parameter as an integer: `default` when it is absent
      (`None`), otherwise `int()` of the text, which fails on anything but
      an integer literal (the empty text included). */
  function RequestedInt(param: Option<string>, default: int): (r: Option<int>)
    ensures param.None? ==> r == Some(default)
    ensures param.Some? ==> (r.Some? <==> IsIntLiteral(param.value))
  {
    match param
    case None => Some(default)
    case Some(s) => ParseInt(s)
  }

  /** `list[(page-1)*per : (page-1)*per + per]`. */
  function PageSlice(list: seq<Post>, page: int, per: int): (r: seq<Post>)
    requires page >= 1 && per >= 1
    ensures |r| <= per
    ensures (page - 1) * per >= |list| ==> r == []
    ensures (page - 1) * per < |list| ==> |r| == if |list| - (page - 1) * per < per then |list| - (page - 1) * per else per
    ensures forall i :: 0 <= i < |r| ==> r[i] == list[(page - 1) * per + i]
  {
    var start := (page - 1) * per;
    if start >= |list| then []
    else if start + per <= |list| then list[start..start + per]
    else list[start..]
  }

  /** Every page is drawn from the list, counting duplicates. */
  lemma PageSliceWithin(list: seq<Post>, page: int, per: int)
    requires page >= 1 && per >= 1
    ensures multiset(PageSlice(list, page, per)) <= multiset(list)
  {
    var start := (page - 1) * per;
    if start < |list| {
      var end := if start + per <= |list| then start + per else |list|;
      assert PageSlice(list, page, per) == list[start..end];
      SliceWithin(list, start, end);
    }
  }

  lemma SliceWithin(list: seq<Post>, lo: int, hi: int)
    requires 0 <= lo <= hi <= |list|
    ensures multiset(list[lo..hi]) <= multiset(list)
  {
    assert list == list[..lo] + list[lo..hi] + list[hi..];
  }

  /** Both parameters are integers once defaulted (`int()` does not raise). */
  predicate IntegerParams(list: seq<Post>, page: Option<string>, perPage: Option<string>) {
    RequestedInt(page, 1).Some? && RequestedInt(perPage, DefaultPerPage(list)).Some?
  }

  /** Both parameters are integers and at least 1: the request gets a page. */
  predicate AcceptedParams(list: seq<Post>, page: Option<string>, perPage: Option<string>) {
    && IntegerParams(list, page, perPage)
    && RequestedInt(page, 1).value >= 1
    && RequestedInt(perPage, DefaultPerPage(list)).value >= 1
  }

  /** The pagination stage: parse both parameters, reject non-integers, then
      reject values below 1, then cut the page. */
  function Paginate(list: seq<Post>, page: Option<string>, perPage: Option<string>): (r: Result<Page>)
    ensures r == Err(NonIntegerPagination) <==> !IntegerParams(list, page, perPage)
    ensures r == Err(NonPositivePagination)
        <==> IntegerParams(list, page, perPage) && !AcceptedParams(list, page, perPage)
    ensures r.Ok? <==> AcceptedParams(list, page, perPage)
    ensures r.Ok? ==>
      && r.value.currentPage == RequestedInt(page, 1).value >= 1
      && r.value.perPage == RequestedInt(perPage, DefaultPerPage(list)).value >= 1
      && r.value.totalPosts == |list|
      && r.value.totalPages == CeilDiv(|list|, r.value.perPage)
      && r.value.results == PageSlice(list, r.value.currentPage, r.value.perPage)
  {
    match (RequestedInt(page, 1), RequestedInt(perPage, DefaultPerPage(list)))
    case (Some(p), Some(n)) =>
      if p < 1 || n < 1 then Err(NonPositivePagination)
      else Ok(Page(|list|, CeilDiv(|list|, n), p, n, PageSlice(list, p, n)))
    case _ => Err(NonIntegerPagination)
  }

  /** `pg` is a page of `list`: the page count is the least that covers the
      list, and the page holds the `per_page` consecutive posts of the list
      starting at `(page-1)*per_page`, or fewer where the list ends. */
  ghost predicate IsPageOf(list: seq<Post>, pg: Page) {
    && pg.totalPosts == |list|
    && pg.currentPage >= 1 && pg.perPage >= 1
    && pg.totalPages * pg.perPage >= |list|
    && (pg.totalPages == 0 || (pg.totalPages - 1) * pg.perPage < |list|)
    && pg.results == PageSlice(list, pg.currentPage, pg.perPage)
  }

  lemma PageFacts(list: seq<Post>, pg: Page)
    requires pg.totalPosts == |list| && pg.perPage >= 1 && pg.currentPage >= 1
    requires pg.totalPages == CeilDiv(|list|, pg.perPage)
    requires pg.results == PageSlice(list, pg.currentPage, pg.perPage)
    ensures IsPageOf(list, pg)
  {
  }

  /** Every successful pagination describes a page of the list. */
  lemma PaginatedPage(list: seq<Post>, page: Option<string>, perPage: Option<string>)
    ensures Paginate(list, page, perPage).Ok? ==> IsPageOf(list, Paginate(list, page, perPage).value)
  {
    if Paginate(list, page, perPage).Ok? {
      PageFacts(list, Paginate(list, page, perPage).value);
    }
  }

  /** A non-empty page starts inside the list. */
  lemma PageStartsInside(list: seq<Post>, pg: Page)
    requires IsPageOf(list, pg)
    ensures pg.results != [] ==> (pg.currentPage - 1) * pg.perPage < |list|
  {
    if pg.results != [] {
      assert (pg.currentPage - 1) * pg.perPage < |list|;
    }
  }

  /** A page past the last one is empty, and still reports the full count. */
  lemma PastLastPageIsEmpty(list: seq<Post>, pg: Page)
    ensures IsPageOf(list, pg) && pg.currentPage > pg.totalPages ==>
      pg.results == [] && pg.totalPosts == |list|
  {
    if IsPageOf(list, pg) && pg.currentPage > pg.totalPages {
      PageStartsInside(list, pg);
      MulMonotone(pg.totalPages, pg.currentPage - 1, pg.perPage);
    }
  }

  lemma MulMonotone(a: int, b: int, n: int)
    requires 0 <= a <= b && n >= 0
    ensures a * n <= b * n
  {
  }

  /** Every page up to the last one holds at least one post. */
  lemma PagesUpToLastAreNonEmpty(list: seq<Post>, p: int, n: int)
    requires n >= 1 && 1 <= p <= CeilDiv(|list|, n)
    ensures |PageSlice(list, p, n)| > 0
  {
    MulMonotone(p - 1, CeilDiv(|list|, n) - 1, n);
  }

  /** The first `count` pages, one after the other. */
  function Pages(list: seq<Post>, per: int, count: nat): seq<Post>
    requires per >= 1
  {
    if count == 0 then [] else Pages(list, per, count - 1) + PageSlice(list, count, per)
  }

  function Min(a: int, b: int): int {
    if a <= b then a else b
  }

  lemma MulPred(count: int, per: int)
    ensures count * per == (count - 1) * per + per
  {
  }

  lemma {:induction false} PagesArePrefix(list: seq<Post>, per: int, count: nat, end: nat)
    requires per >= 1 && end == count * per
    ensures Pages(list, per, count) == list[..Min(end, |list|)]
    decreases count
  {
    if count > 0 {
      var start := (count - 1) * per;
      MulPred(count, per);
      PagesArePrefix(list, per, count - 1, start);
      assert PageSlice(list, count, per) == SliceBetween(list, start, end);
      PrefixExtend(list, start, end);
    }
  }

  /** `list[lo:hi]` with Python's clamping of both ends. */
  function SliceBetween(list: seq<Post>, lo: nat, hi: nat): seq<Post>
    requires lo <= hi
  {
    if lo >= |list| then [] else list[lo..Min(hi, |list|)]
  }

  lemma PrefixExtend(list: seq<Post>, lo: nat, hi: nat)
    requires lo <= hi
    ensures list[..Min(lo, |list|)] + SliceBetween(list, lo, hi) == list[..Min(hi, |list|)]
  {
    if lo < |list| {
      assert list[..lo] + list[lo..Min(hi, |list|)] == list[..Min(hi, |list|)];
    }
  }

  /** Reading pages 1 to `total_pages` in turn yields the whole list, each
      post once and in order. */
  lemma PagesCoverList(list: seq<Post>, per: int)
    requires per >= 1
    ensures Pages(list, per, CeilDiv(|list|, per)) == list
  {
    var count := CeilDiv(|list|, per);
    PagesArePrefix(list, per, count, count * per);
    assert Min(count * per, |list|) == |list|;
    assert list[..|list|] == list;
  }

  /** With neither `page` nor `per_page`, the whole list is one page. */
  lemma DefaultPagination(list: seq<Post>)
    ensures Paginate(list, None, None) == Ok(Page(
      |list|,
      if |list| == 0 then 0 else 1,
      1,
      if |list| == 0 then 10 else |list|,
      list))
  {
    var n := DefaultPerPage(list);
    var pages := if |list| == 0 then 0 else 1;
    assert CeilDiv(|list|, n) == pages by {
      if |list| > 0 { CeilDivOfWhole(|list|); }
    }
    assert PageSlice(list, 1, n) == list by {
      if |list| > 0 { assert list[0..|list|] == list; }
    }
  }

  lemma CeilDivOfWhole(n: nat)
    requires n >= 1
    ensures CeilDiv(n, n) == 1
  {
    var pages := CeilDiv(n, n);
    MulCancel(1, pages, n);
    MulCancel(pages, 1, n);
  }

  /** Cancelling a positive factor from `<=`. */
  lemma MulCancel(a: int, b: int, n: int)
    requires n >= 1 && a * n <= b * n
    ensures a <= b
  {
    if a > b {
      MulMonotone(b + 1, a, n);
    }
  }
}

=== FILE: posts.dfy ===
/** The post record, the collection, the engine's failures, and the
    id rules every operation shares. */
module Posts {
  import opened Options
  import opened Text

  /** One blog post. `id`, `title` and `content` are read with `post[key]`
      by the handlers, so every stored post has them; `author` and `date`
      are read with `post.get(key)` and may be missing from older records. */
  datatype Post = Post(
    id: int,
    title: string,
    content: string,
    author: Option<string>,
    date: Option<string>)

  /** A decoded JSON request body: `None` for a JSON `null` body,
      otherwise the object's keys with their string values. A request
      whose body does not decode as JSON never reaches the engine. */
  type Body = Option<map<string, string>>

  /** The error responses the engine produces. */
  datatype Failure =
    | IncompleteSort
    | InvalidSortField
    | InvalidDirection
    | NonIntegerPagination
    | NonPositivePagination
    | MissingTitleOrContent
    | PostNotFound(id: nat)

  datatype Result<+T> = Ok(value: T) | Err(failure: Failure)

  /** HTTP status of a failure response. */
  function Status(f: Failure): (code: int)
    ensures code == 404 <==> f.PostNotFound?
    ensures code == 400 <==> !f.PostNotFound?
  {
    if f.PostNotFound? then 404 else 400
  }

  /** The `"error"` text of a failure response. */
  function Message(f: Failure): string {
    match f
    case IncompleteSort =>
      "Both 'sort' and 'direction' query" + " parameters must be provided for sorting."
    case InvalidSortField =>
      "Invalid sort field. Must be one of: id, title, content, author, date"
    case InvalidDirection =>
      "Invalid sort direction. Must be 'asc' or 'desc'."
    case NonIntegerPagination =>
      "Pagination parameters 'page' and 'per_page' must be valid integers."
    case NonPositivePagination =>
      "Pagination parameters 'page' and 'per_page' must be positive integers."
    case MissingTitleOrContent =>
      "Missing title or content in request body."
    case PostNotFound(id) =>
      "Post with id " + NatToString(id) + " not found."
  }

  /** Two not-found responses carry the same text only for the same id. */
  lemma NotFoundMessageIdentifiesId(a: nat, b: nat)
    requires Message(PostNotFound(a)) == Message(PostNotFound(b))
    ensures a == b
  {
    var pre := "Post with id ";
    var post := " not found.";
    assert NatToString(a) == Message(PostNotFound(a))[|pre|..|Message(PostNotFound(a))| - |post|];
    assert NatToString(b) == Message(PostNotFound(b))[|pre|..|Message(PostNotFound(b))| - |post|];
    NatToStringInjective(a, b);
  }

  /** The error text names the failure: distinct failures never share one. */
  lemma MessageIdentifiesFailure(a: Failure, b: Failure)
    requires Message(a) == Message(b)
    ensures a == b
  {
    if a.PostNotFound? && b.PostNotFound? {
      NotFoundMessageIdentifiesId(a.id, b.id);
    } else if a.PostNotFound? {
      NotFoundDiffersFromFixed(a.id, b);
    } else if b.PostNotFound? {
      NotFoundDiffersFromFixed(b.id, a);
    } else {
      FixedMark(a);
      FixedMark(b);
    }
  }

  /** Two characters near the end that tell the six fixed texts apart: the
      next-to-last character separates all but the two pagination texts,
      and the 11th from the end separates those (the last letter of "valid"
      against that of "positive"). The texts share their openings ("Post
      with id", "Pagination parameters"), so their endings are where they
      differ. */
  function Mark(m: string): (char, char)
    requires |m| >= 11
  {
    (m[|m| - 2], m[|m| - 11])
  }

  lemma FixedMark(f: Failure)
    requires !f.PostNotFound?
    ensures |Message(f)| >= 11
    ensures Mark(Message(f)) == match f
      case IncompleteSort => ('g', 'o')
      case InvalidSortField => ('t', 'u')
      case InvalidDirection => ('\'', ' ')
      case NonIntegerPagination => ('s', 'd')
      case NonPositivePagination => ('s', 'e')
      case _ => ('y', 'q')
  {
  }

  /** Only the not-found text has 'd' as its next-to-last character. */
  lemma NotFoundDiffersFromFixed(id: nat, f: Failure)
    requires !f.PostNotFound?
    ensures Message(PostNotFound(id)) != Message(f)
  {
    var tail := " not found.";
    var m := Message(PostNotFound(id));
    assert m == "Post with id " + NatToString(id) + tail;
    assert m[|m| - 2] == 'd';
    var n := Message(f);
    assert n[|n| - 2] != 'd';
  }

  // ---------------------------------------------------------------------------
  // Ids
  // ---------------------------------------------------------------------------

  /** The collection invariant: ids are pairwise distinct. */
  ghost predicate IdsUnique(posts: seq<Post>) {
    forall i, j :: 0 <= i < j < |posts| ==> posts[i].id != posts[j].id
  }

  ghost predicate IdsPositive(posts: seq<Post>) {
    forall i :: 0 <= i < |posts| ==> posts[i].id > 0
  }

  /** `max(post["id"] for post in posts)`. */
  function MaxId(posts: seq<Post>): (m: int)
    requires |posts| > 0
    ensures forall i :: 0 <= i < |posts| ==> posts[i].id <= m
    ensures exists i :: 0 <= i < |posts| && posts[i].id == m
  {
    if |posts| == 1 then posts[0].id
    else
      var rest := MaxId(posts[1..]);
      if posts[0].id >= rest then posts[0].id else rest
  }

  /** `get_new_id`: one more than the largest id, or 1 for an empty collection. */
  function NextId(posts: seq<Post>): (id: int)
    ensures forall i :: 0 <= i < |posts| ==> posts[i].id < id
    ensures |posts| == 0 ==> id == 1
    ensures |posts| > 0 ==> exists i :: 0 <= i < |posts| && id == posts[i].id + 1
  {
    if |posts| == 0 then 1 else MaxId(posts) + 1
  }

  /** Among all ids above every existing one, the new id is the least. */
  lemma NextIdIsLeastFreshAbove(posts: seq<Post>, candidate: int)
    requires |posts| > 0
    requires forall i :: 0 <= i < |posts| ==> posts[i].id < candidate
    ensures NextId(posts) <= candidate
  {
  }

  /** Positive ids keep the new id positive. */
  lemma NextIdPositive(posts: seq<Post>)
    requires IdsPositive(posts)
    ensures NextId(posts) > 0
  {
  }

  // ---------------------------------------------------------------------------
  // Lookup by id
  // ---------------------------------------------------------------------------

  /** `i` is the first position holding `id`. */
  ghost predicate FirstWithId(posts: seq<Post>, id: int, i: int) {
    0 <= i < |posts| && posts[i].id == id
    && forall j :: 0 <= j < i ==> posts[j].id != id
  }

  ghost predicate HasId(posts: seq<Post>, id: int) {
    exists i :: 0 <= i < |posts| && posts[i].id == id
  }

  /** The scan loop of `update_post` / `delete_post`: the index of the first
      post with `id`, or `None`. */
  function FindIndex(posts: seq<Post>, id: int): (r: Option<nat>)
    ensures r.Some? ==> FirstWithId(posts, id, r.value)
    ensures r.None? <==> !HasId(posts, id)
  {
    if |posts| == 0 then None
    else if posts[0].id == id then Some(0)
    else
      match FindIndex(posts[1..], id)
      case Some(i) => Some(i + 1)
      case None => None
  }

  /** Under unique ids the post found is the only one with that id. */
  lemma FoundIsOnly(posts: seq<Post>, id: int)
    requires IdsUnique(posts)
    requires FindIndex(posts, id).Some?
    ensures forall j :: 0 <= j < |posts| && posts[j].id == id ==> j == FindIndex(posts, id).value
  {
  }

  // ---------------------------------------------------------------------------
  // Seed data
  // ---------------------------------------------------------------------------

  /** `DEFAULT_POSTS`, written to a store that does not exist yet. */
  const SeedPosts: seq<Post> := [
    Post(1, "First post about Python", "This is the first post. Python is great.",
         Some("Alice Python"), Some("2024-05-15")),
    Post(2, "Second post about Flask", "This is the second post. Flask makes APIs easy.",
         Some("Bob Flask"), Some("2024-05-20"))
  ]

  lemma SeedWellFormed()
    ensures IdsUnique(SeedPosts) && IdsPositive(SeedPosts)
    ensures NextId(SeedPosts) == 3
  {
  }
}

=== FILE: query.dfy ===
/** The list endpoint (`GET` on the posts collection): validate the sort
    parameters, sort, paginate, and choose between the plain list and the
    paginated object. */
module Query {
  import opened Options
  import opened Posts
  import opened Sorting
  import opened Pagination
  import Text

  /** The four query parameters; `None` when absent from the URL. */
  datatype Params = Params(
    sort: Option<string>,
    direction: Option<string>,
    page: Option<string>,
    perPage: Option<string>)

  /** Python truthiness of `request.args.get(name)`: present and non-empty. */
  predicate Given(param: Option<string>) {
    param.Some? && |param.value| > 0
  }

  predicate AnyGiven(q: Params) {
    Given(q.sort) || Given(q.direction) || Given(q.page) || Given(q.perPage)
  }

  const Directions: seq<string> := ["asc", "desc"]

  datatype SortSpec = SortSpec(field: SortField, descending: bool)

  /** The sort stage's checks, in the order the handler makes them: both or
      neither of `sort` and `direction`, then a known field, then a known
      direction. `Ok(None)` means no sorting was asked for. */
  function ValidateSort(q: Params): (r: Result<Option<SortSpec>>)
    ensures r == Ok(None) <==> !Given(q.sort) && !Given(q.direction)
    ensures r == Err(IncompleteSort) <==> Given(q.sort) != Given(q.direction)
    ensures r == Err(InvalidSortField)
        <==> Given(q.sort) && Given(q.direction) && q.sort.value !in FieldNames
    ensures r == Err(InvalidDirection)
        <==> Given(q.sort) && Given(q.direction) && q.sort.value in FieldNames
             && q.direction.value !in Directions
    ensures r.Ok? <==>
      || (!Given(q.sort) && !Given(q.direction))
      || (Given(q.sort) && Given(q.direction)
          && q.sort.value in FieldNames && q.direction.value in Directions)
    ensures r.Ok? && r.value.Some? ==>
      && Given(q.sort) && Given(q.direction)
      && FieldName(r.value.value.field) == q.sort.value
      && q.direction.value in Directions
      && (r.value.value.descending <==> q.direction.value == "desc")
  {
    if !Given(q.sort) && !Given(q.direction) then Ok(None)
    else if Given(q.sort) != Given(q.direction) then Err(IncompleteSort)
    else
      match ParseField(q.sort.value)
      case None => Err(InvalidSortField)
      case Some(field) =>
        FieldNameRoundTrip(field, q.sort.value);
        if q.direction.value !in Directions then Err(InvalidDirection)
        else Ok(Some(SortSpec(field, q.direction.value == "desc")))
  }

  /** What the list endpoint answers with. */
  datatype Listing = Plain(posts: seq<Post>) | Paged(page: Page)

  /** The posts the pagination stage works on: sorted when sorting was asked
      for and is valid, the stored order otherwise. */
  function Arranged(posts: seq<Post>, spec: Option<SortSpec>): (r: seq<Post>)
    ensures multiset(r) == multiset(posts)
    ensures spec.None? ==> r == posts
    ensures spec.Some? ==> Sorted(r, spec.value.field, spec.value.descending)
  {
    match spec
    case None => posts
    case Some(s) =>
      SortPostsCorrect(posts, s.field, s.descending);
      SortPosts(posts, s.field, s.descending)
  }

  /** The list endpoint. Sort errors are reported before pagination errors;
      with no parameter given the stored list comes back untouched. */
  function List(posts: seq<Post>, q: Params): (r: Result<Listing>)
    ensures !AnyGiven(q) ==> r == Ok(Plain(posts))
    ensures ValidateSort(q).Err? ==> r == Err(ValidateSort(q).failure)
    ensures r.Err? ==> Status(r.failure) == 400
    ensures ValidateSort(q).Ok? && AnyGiven(q) ==>
      (r.Ok? <==> AcceptedParams(posts, q.page, q.perPage))
    ensures ValidateSort(q).Ok? && AnyGiven(q) ==>
      (r == Err(NonIntegerPagination) <==> !IntegerParams(posts, q.page, q.perPage))
    ensures ValidateSort(q).Ok? && AnyGiven(q) ==>
      (r == Err(NonPositivePagination) <==>
         IntegerParams(posts, q.page, q.perPage) && !AcceptedParams(posts, q.page, q.perPage))
    ensures r.Ok? && AnyGiven(q) ==>
      && r.value.Paged?
      && IsPageOf(Arranged(posts, ValidateSort(q).value), r.value.page)
      && r.value.page.currentPage == RequestedInt(q.page, 1).value
      && r.value.page.perPage == RequestedInt(q.perPage, DefaultPerPage(posts)).value
      && multiset(r.value.page.results) <= multiset(posts)
  {
    match ValidateSort(q)
    case Err(f) => Err(f)
    case Ok(spec) =>
      if !AnyGiven(q) then Ok(Plain(posts))
      else
        var list := Arranged(posts, spec);
        match Paginate(list, q.page, q.perPage)
        case Err(f) => Err(f)
        case Ok(pg) =>
          PaginatedPage(list, q.page, q.perPage);
          PageSliceWithin(list, pg.currentPage, pg.perPage);
          Ok(Paged(pg))
  }

  /** With only `sort` and `direction` given, the paginated object holds
      the entire sorted list on page 1 of 1 (0 pages when empty), and
      `per_page` is the list length, or 10 when the list is empty. */
  lemma SortOnlyReturnsWholeSortedList(posts: seq<Post>, q: Params)
    requires ValidateSort(q).Ok? && ValidateSort(q).value.Some?
    requires q.page.None? && q.perPage.None?
    ensures var spec := ValidateSort(q).value.value;
      List(posts, q) == Ok(Paged(Page(
        |posts|,
        if |posts| == 0 then 0 else 1,
        1,
        if |posts| == 0 then 10 else |posts|,
        SortPosts(posts, spec.field, spec.descending))))
  {
    var spec := ValidateSort(q).value.value;
    assert Given(q.sort) && AnyGiven(q);
    var list := SortPosts(posts, spec.field, spec.descending);
    assert Arranged(posts, Some(spec)) == list;
    DefaultPagination(list);
    ListComposesStages(posts, q);
  }

  /** Once the sort parameters pass and some parameter is given, the answer
      is the pagination of the arranged list. */
  lemma ListComposesStages(posts: seq<Post>, q: Params)
    requires ValidateSort(q).Ok? && AnyGiven(q)
    ensures var paged := Paginate(Arranged(posts, ValidateSort(q).value), q.page, q.perPage);
      List(posts, q) == if paged.Ok? then Ok(Paged(paged.value)) else Err(paged.failure)
  {
  }

  /** Pagination without sorting pages through the posts in stored order. */
  lemma UnsortedPagesFollowStoredOrder(posts: seq<Post>, q: Params)
    requires !Given(q.sort) && !Given(q.direction)
    requires List(posts, q).Ok? && List(posts, q).value.Paged?
    ensures IsPageOf(posts, List(posts, q).value.page)
  {
  }

  /** Parameters that are present but empty are falsy: `?sort=&direction=&page=&per_page=`
      answers with the plain stored list, as if nothing were given. */
  lemma EmptyParametersAreNotGiven(posts: seq<Post>)
    ensures List(posts, Params(Some(""), Some(""), Some(""), Some(""))) == Ok(Plain(posts))
  {
  }

  /** An empty `page` next to a valid sort is present, so it is not
      defaulted to 1, and `int("")` fails. */
  lemma EmptyPageWithSortIsNotAnInteger(posts: seq<Post>, field: SortField, direction: string)
    requires direction in Directions
    ensures List(posts, Params(Some(FieldName(field)), Some(direction), Some(""), None))
         == Err(NonIntegerPagination)
  {
    var q := Params(Some(FieldName(field)), Some(direction), Some(""), None);
    assert Given(q.sort) && Given(q.direction);
    assert !Text.IsIntLiteral("");
  }

  /** The seed collection sorted by id, descending, with no paging
      parameters: both posts on one page, newest first. */
  lemma SeedSortedByIdDescending()
    ensures List(SeedPosts, Params(Some("id"), Some("desc"), None, None))
         == Ok(Paged(Page(2, 1, 1, 2, [SeedPosts[1], SeedPosts[0]])))
  {
    var q := Params(Some("id"), Some("desc"), None, None);
    assert ValidateSort(q) == Ok(Some(SortSpec(ById, true))) by {
      assert ParseField("id") == Some(ById);
    }
    SortOnlyReturnsWholeSortedList(SeedPosts, q);
    SeedIdDescendingOrder();
  }

  lemma SeedIdDescendingOrder()
    ensures SortPosts(SeedPosts, ById, true) == [SeedPosts[1], SeedPosts[0]]
  {
    var a, b := SeedPosts[0], SeedPosts[1];
    assert SeedPosts == [a, b];
    assert [a, b][..1] == [a];
    assert [a][..0] == [];
    assert SortPosts([a], ById, true) == [a];
    assert !InOrder(KeyOf(ById, a), KeyOf(ById, b), true);
    assert Insert(b, [a], ById, true) == [b, a];
  }
}

=== FILE: search.dfy ===
/** The search endpoint: a case-insensitive substring filter over the four
    text fields, wrapped with a count and a message. */
module Search {
  import opened Options
  import opened Text
  import opened Posts

  /** `term` (already lowered) occurs in the lowered title, content, author
      or date; a missing author or date reads as the empty text. */
  predicate Matches(p: Post, term: string) {
    || Contains(Lower(p.title), term)
    || Contains(Lower(p.content), term)
    || Contains(Lower(p.author.GetOr("")), term)
    || Contains(Lower(p.date.GetOr("")), term)
  }

  /** The comprehension `[post for post in posts if ...]`. */
  function Filter(posts: seq<Post>, term: string): (r: seq<Post>)
    ensures |r| <= |posts|
    ensures forall p :: multiset(r)[p] == if Matches(p, term) then multiset(posts)[p] else 0
  {
    if |posts| == 0 then []
    else
      assert posts == [posts[0]] + posts[1..];
      (if Matches(posts[0], term) then [posts[0]] else []) + Filter(posts[1..], term)
  }

  /** A missing author or date reads as `""`, which holds no non-empty
      term: such a post matches only through its title or content. */
  lemma MissingFieldsNeverMatch(p: Post, term: string)
    requires p.author.None? && p.date.None? && |term| > 0
    ensures Matches(p, term) <==> Contains(Lower(p.title), term) || Contains(Lower(p.content), term)
  {
    ContainsIff(Lower(""), term);
  }

  /** `a` is `b` with some elements left out, order kept. */
  predicate IsSubsequence(a: seq<Post>, b: seq<Post>)
    decreases |b|
  {
    if |a| == 0 then true
    else if |b| == 0 then false
    else if a[0] == b[0] then IsSubsequence(a[1..], b[1..])
    else IsSubsequence(a, b[1..])
  }

  /** The filter keeps exactly the matching posts and nothing else. */
  lemma {:induction false} FilterMembers(posts: seq<Post>, term: string)
    ensures forall p :: p in Filter(posts, term) <==> p in posts && Matches(p, term)
    decreases |posts|
  {
    if |posts| > 0 {
      FilterMembers(posts[1..], term);
      assert posts == [posts[0]] + posts[1..];
    }
  }

  /** The filter keeps the stored order. */
  lemma {:induction false} FilterIsSubsequence(posts: seq<Post>, term: string)
    ensures IsSubsequence(Filter(posts, term), posts)
    decreases |posts|
  {
    if |posts| > 0 {
      FilterIsSubsequence(posts[1..], term);
      var rest := Filter(posts[1..], term);
      if Matches(posts[0], term) {
        assert ([posts[0]] + rest)[1..] == rest;
      } else {
        assert Filter(posts, term) == rest;
        SubsequenceOfTail(rest, posts);
      }
    }
  }

  /** A subsequence of the tail is a subsequence of the whole. */
  lemma {:induction false} SubsequenceOfTail(a: seq<Post>, b: seq<Post>)
    requires |b| > 0 && IsSubsequence(a, b[1..])
    ensures IsSubsequence(a, b)
    decreases |b|, 0
  {
    if |a| > 0 && a[0] == b[0] {
      SubsequenceDropFirst(a, b[1..]);
    }
  }

  /** Dropping the first element of a subsequence keeps it a subsequence. */
  lemma {:induction false} SubsequenceDropFirst(a: seq<Post>, b: seq<Post>)
    requires |a| > 0 && IsSubsequence(a, b)
    ensures IsSubsequence(a[1..], b)
    decreases |b|, 1
  {
    if a[0] == b[0] {
      SubsequenceOfTail(a[1..], b);
    } else {
      SubsequenceDropFirst(a, b[1..]);
      SubsequenceOfTail(a[1..], b);
    }
  }

  /** Every post matches the empty term, so filtering by it keeps all. */
  lemma {:induction false} EmptyTermMatchesAll(posts: seq<Post>)
    ensures Filter(posts, "") == posts
    decreases |posts|
  {
    if |posts| > 0 {
      EmptyTermMatchesAll(posts[1..]);
      assert Matches(posts[0], "");
      assert posts == [posts[0]] + posts[1..];
    }
  }

  /** The message for a filtered search of `count` results. */
  function CountMessage(count: nat): (m: string)
    ensures count == 0 ==> m == "0 results found."
    ensures count == 1 ==> m == "1 result found."
    ensures count >= 2 ==> m == NatToString(count) + " results found."
  {
    if count == 0 then "0 results found."
    else if count == 1 then "1 result found."
    else NatToString(count) + " results found."
  }

  /** Reads the count back out of a result message. */
  function CountOfMessage(m: string): Option<nat> {
    var tail := " results found.";
    if m == "1 result found." then Some(1)
    else if |m| > |tail| && m[|m| - |tail|..] == tail && AllDigits(m[..|m| - |tail|])
    then Some(DigitsValue(m[..|m| - |tail|]))
    else None
  }

  /** The message names its count. */
  lemma CountMessageRoundTrip(count: nat)
    ensures CountOfMessage(CountMessage(count)) == Some(count)
  {
    var m := CountMessage(count);
    var tail := " results found.";
    if count != 1 {
      assert m == NatToString(count) + tail;
      assert m[..|m| - |tail|] == NatToString(count);
      assert m[|m| - |tail|..] == tail;
      assert m != "1 result found." by {
        assert |m| > 15;
      }
      NatToStringValue(count);
    }
  }

  /** Different counts give different messages. */
  lemma CountMessageInjective(a: nat, b: nat)
    requires CountMessage(a) == CountMessage(b)
    ensures a == b
  {
    CountMessageRoundTrip(a);
    CountMessageRoundTrip(b);
  }

  datatype SearchResult = SearchResult(count: nat, results: seq<Post>, message: string)

  /** The search endpoint with the `query` parameter (`None` when absent).
      An empty term returns everything, with the plural message even for a
      single post. */
  function Search(posts: seq<Post>, query: Option<string>): (r: SearchResult)
    ensures r.count == |r.results|
    ensures |Lower(query.GetOr(""))| == 0 ==>
      r.results == posts && r.message == NatToString(|posts|) + " results found."
    ensures |Lower(query.GetOr(""))| > 0 ==>
      && (forall p :: p in r.results <==> p in posts && Matches(p, Lower(query.GetOr(""))))
      && (forall p :: multiset(r.results)[p]
            == if Matches(p, Lower(query.GetOr(""))) then multiset(posts)[p] else 0)
      && IsSubsequence(r.results, posts)
      && r.message == CountMessage(r.count)
  {
    var term := Lower(query.GetOr(""));
    if |term| == 0 then
      SearchResult(|posts|, posts, NatToString(|posts|) + " results found.")
    else
      var results := Filter(posts, term);
      FilterMembers(posts, term);
      FilterIsSubsequence(posts, term);
      SearchResult(|results|, results, CountMessage(|results|))
  }

  /** Searching for nothing is the same as filtering by the empty term. */
  lemma EmptySearchReturnsEverything(posts: seq<Post>)
    ensures Search(posts, None).results == Filter(posts, "")
    ensures Search(posts, Some("")).count == |posts|
  {
    EmptyTermMatchesAll(posts);
  }

  /** With a one-post collection and no term, the message reads
      "1 results found.", unlike the filtered search's "1 result found.". */
  lemma EmptySearchOfOnePostIsPlural(p: Post)
    ensures Search([p], None).message == "1 results found."
    ensures CountMessage(1) == "1 result found."
  {
    assert NatToString(1) == "1";
  }

  /** Upper case in the term does not change the results. */
  lemma SearchIgnoresTermCase(posts: seq<Post>, query: string)
    ensures Search(posts, Some(query)).results == Search(posts, Some(Lower(query))).results
  {
    LowerIdempotent(query);
  }
}

=== FILE: sorting.dfy ===
/** The sort stage of the list endpoint: per-field sort keys and Python's
    `sorted(posts, key=..., reverse=...)`, which is stable in both
    directions. */
module Sorting {
  import opened Options
  import opened Text
  import opened Dates
  import opened Posts

  datatype SortField = ById | ByTitle | ByContent | ByAuthor | ByDate

  /** The `sort` parameter names in the order the error message lists them. */
  const FieldNames: seq<string> := ["id", "title", "content", "author", "date"]

  function FieldName(f: SortField): string {
    match f
    case ById => "id"
    case ByTitle => "title"
    case ByContent => "content"
    case ByAuthor => "author"
    case ByDate => "date"
  }

  /** Reads a `sort` parameter; `None` when it is not one of the five names. */
  function ParseField(s: string): (r: Option<SortField>)
    ensures r.Some? <==> s in FieldNames
  {
    if s == "id" then Some(ById)
    else if s == "title" then Some(ByTitle)
    else if s == "content" then Some(ByContent)
    else if s == "author" then Some(ByAuthor)
    else if s == "date" then Some(ByDate)
    else None
  }

  /** Field names and fields correspond one to one. */
  lemma FieldNameRoundTrip(f: SortField, s: string)
    ensures ParseField(FieldName(f)) == Some(f)
    ensures ParseField(s).Some? ==> FieldName(ParseField(s).value) == s
  {
  }

  // ---------------------------------------------------------------------------
  // Keys
  // ---------------------------------------------------------------------------

  /** A sort key: an integer (ids, dates) or a lowered string (text fields). */
  datatype Key = Number(n: int) | Word(s: string)

  /** The `key=` function for each field. */
  function KeyOf(field: SortField, p: Post): Key {
    match field
    case ById => Number(p.id)
    case ByDate => Number(Ordinal(SortDate(p.date)))
    case ByTitle => Word(Lower(p.title))
    case ByContent => Word(Lower(p.content))
    case ByAuthor => Word(Lower(p.author.GetOr("")))
  }

  /** What each `key=` function yields: the id itself; the effective date
      (parsed, or 1900-01-01) as a chronological number; the lowered text,
      with a missing author read as `""`. */
  lemma KeyOfByField(field: SortField, p: Post)
    ensures field == ById ==> KeyOf(field, p) == Number(p.id)
    ensures field == ByDate ==>
      && Valid(SortDate(p.date))
      && KeyOf(field, p) == Number(Ordinal(SortDate(p.date)))
    ensures field == ByTitle ==> KeyOf(field, p) == Word(Lower(p.title))
    ensures field == ByContent ==> KeyOf(field, p) == Word(Lower(p.content))
    ensures field == ByAuthor ==> KeyOf(field, p) == Word(Lower(p.author.GetOr("")))
    ensures field == ByAuthor && p.author.None? ==> KeyOf(field, p) == Word("")
  {
  }

  /** Python's `<=` on keys of one kind; numbers are placed before words so
      that the relation is total, although one sort only ever sees one kind. */
  predicate KeyLe(a: Key, b: Key) {
    match (a, b)
    case (Number(x), Number(y)) => x <= y
    case (Word(x), Word(y)) => LexLe(x, y)
    case (Number(_), Word(_)) => true
    case (Word(_), Number(_)) => false
  }

  /** `a` may precede `b` in a sort in the given direction. */
  predicate InOrder(a: Key, b: Key, descending: bool) {
    if descending then KeyLe(b, a) else KeyLe(a, b)
  }

  lemma InOrderReflexive(a: Key, descending: bool)
    ensures InOrder(a, a, descending)
  {
    if a.Word? { LexLeReflexive(a.s); }
  }

  lemma InOrderTotal(a: Key, b: Key, descending: bool)
    ensures InOrder(a, b, descending) || InOrder(b, a, descending)
  {
    if a.Word? && b.Word? { LexLeTotal(a.s, b.s); }
  }

  lemma InOrderTransitive(a: Key, b: Key, c: Key, descending: bool)
    requires InOrder(a, b, descending) && InOrder(b, c, descending)
    ensures InOrder(a, c, descending)
  {
    if a.Word? && b.Word? && c.Word? {
      if descending { LexLeTransitive(c.s, b.s, a.s); } else { LexLeTransitive(a.s, b.s, c.s); }
    }
  }

  /** Keys that may each precede the other are equal. */
  lemma InOrderAntisymmetric(a: Key, b: Key, descending: bool)
    requires InOrder(a, b, descending) && InOrder(b, a, descending)
    ensures a == b
  {
    if a.Word? && b.Word? { LexLeAntisymmetric(a.s, b.s); }
  }

  /** For valid dates, the date key orders posts chronologically. */
  lemma DateKeyChronological(p: Post, q: Post)
    ensures KeyLe(KeyOf(ByDate, p), KeyOf(ByDate, q)) <==> NotAfter(SortDate(p.date), SortDate(q.date))
  {
    OrdinalOrdersChronologically(SortDate(p.date), SortDate(q.date));
  }

  /** A post whose date is missing or unreadable sorts, ascending, no later
      than any post dated 1900-01-01 or after. */
  lemma UndatedSortsFirst(p: Post, q: Post)
    requires p.date.None? || Parse(p.date.value).None?
    requires q.date.Some? && Parse(q.date.value).Some? && Parse(q.date.value).value.year >= 1900
    ensures InOrder(KeyOf(ByDate, p), KeyOf(ByDate, q), false)
  {
    FallbackIsEarliest(p.date, Parse(q.date.value).value);
  }

  // ---------------------------------------------------------------------------
  // Sortedness and stability
  // ---------------------------------------------------------------------------

  ghost predicate Sorted(s: seq<Post>, field: SortField, descending: bool) {
    forall i, j :: 0 <= i < j < |s| ==> InOrder(KeyOf(field, s[i]), KeyOf(field, s[j]), descending)
  }

  /** The posts of `s` whose key is `k`, in their order in `s`. Stability
      means this subsequence is the same before and after sorting. */
  function WithKey(s: seq<Post>, field: SortField, k: Key): (r: seq<Post>)
    ensures |r| <= |s|
  {
    if |s| == 0 then []
    else (if KeyOf(field, s[0]) == k then [s[0]] else []) + WithKey(s[1..], field, k)
  }

  lemma {:induction false} WithKeyAppend(a: seq<Post>, b: seq<Post>, field: SortField, k: Key)
    ensures WithKey(a + b, field, k) == WithKey(a, field, k) + WithKey(b, field, k)
    decreases |a|
  {
    if |a| > 0 {
      WithKeyAppend(a[1..], b, field, k);
      var ab := a + b;
      assert ab[0] == a[0];
      assert ab[1..] == a[1..] + b;
      var h := if KeyOf(field, a[0]) == k then [a[0]] else [];
      assert WithKey(ab, field, k) == h + WithKey(a[1..] + b, field, k);
      assert WithKey(a, field, k) == h + WithKey(a[1..], field, k);
    } else {
      assert a + b == b;
    }
  }

  lemma {:induction false} WithKeyNone(s: seq<Post>, field: SortField, k: Key)
    requires forall i :: 0 <= i < |s| ==> KeyOf(field, s[i]) != k
    ensures WithKey(s, field, k) == []
    decreases |s|
  {
    if |s| > 0 {
      WithKeyNone(s[1..], field, k);
    }
  }

  // ---------------------------------------------------------------------------
  // Insertion sort
  // ---------------------------------------------------------------------------

  /** Puts `x` after every post it does not strictly precede. */
  function Insert(x: Post, s: seq<Post>, field: SortField, descending: bool): (r: seq<Post>)
    ensures |r| == |s| + 1
  {
    if |s| == 0 then [x]
    else if !InOrder(KeyOf(field, s[0]), KeyOf(field, x), descending) then [x] + s
    else [s[0]] + Insert(x, s[1..], field, descending)
  }

  /** `sorted(posts, key=KeyOf(field), reverse=descending)`: each post in
      turn is inserted after all earlier posts with an equal key. */
  function SortPosts(s: seq<Post>, field: SortField, descending: bool): (r: seq<Post>)
    ensures |r| == |s|
  {
    if |s| == 0 then []
    else Insert(s[|s| - 1], SortPosts(s[..|s| - 1], field, descending), field, descending)
  }

  lemma {:induction false} InsertPermutes(x: Post, s: seq<Post>, field: SortField, descending: bool)
    ensures multiset(Insert(x, s, field, descending)) == multiset(s) + multiset{x}
    decreases |s|
  {
    if |s| > 0 && InOrder(KeyOf(field, s[0]), KeyOf(field, x), descending) {
      InsertPermutes(x, s[1..], field, descending);
      assert s == [s[0]] + s[1..];
    }
  }

  lemma {:induction false} InsertSorted(x: Post, s: seq<Post>, field: SortField, descending: bool)
    requires Sorted(s, field, descending)
    ensures Sorted(Insert(x, s, field, descending), field, descending)
    decreases |s|
  {
    if |s| == 0 {
    } else if !InOrder(KeyOf(field, s[0]), KeyOf(field, x), descending) {
      InsertSortedAtFront(x, s, field, descending);
    } else {
      var rest := s[1..];
      assert Sorted(rest, field, descending);
      InsertSorted(x, rest, field, descending);
      InsertSortedBehind(x, s, field, descending);
    }
  }

  /** `x` strictly before the first post of a sorted `s` may lead it. */
  lemma InsertSortedAtFront(x: Post, s: seq<Post>, field: SortField, descending: bool)
    requires |s| > 0 && Sorted(s, field, descending)
    requires !InOrder(KeyOf(field, s[0]), KeyOf(field, x), descending)
    ensures Sorted([x] + s, field, descending)
  {
    var kx := KeyOf(field, x);
    InOrderTotal(KeyOf(field, s[0]), kx, descending);
    forall j | 0 <= j < |s|
      ensures InOrder(kx, KeyOf(field, s[j]), descending)
    {
      if j > 0 {
        InOrderTransitive(kx, KeyOf(field, s[0]), KeyOf(field, s[j]), descending);
      }
    }
    var r := [x] + s;
    assert forall i :: 1 <= i < |r| ==> r[i] == s[i - 1];
  }

  /** A key every input of `Insert` may follow, every output may follow. */
  lemma {:induction false} InsertKeepsLowerBound(x: Post, s: seq<Post>, field: SortField, descending: bool, lo: Key)
    requires InOrder(lo, KeyOf(field, x), descending)
    requires forall j :: 0 <= j < |s| ==> InOrder(lo, KeyOf(field, s[j]), descending)
    ensures forall j :: 0 <= j < |Insert(x, s, field, descending)| ==>
      InOrder(lo, KeyOf(field, Insert(x, s, field, descending)[j]), descending)
    decreases |s|
  {
    if |s| > 0 && InOrder(KeyOf(field, s[0]), KeyOf(field, x), descending) {
      InsertKeepsLowerBound(x, s[1..], field, descending, lo);
      var tail := Insert(x, s[1..], field, descending);
      assert forall j :: 1 <= j < |tail| + 1 ==> ([s[0]] + tail)[j] == tail[j - 1];
    }
  }

  /** The first post of `s` may lead once `x` has gone into the rest. */
  lemma InsertSortedBehind(x: Post, s: seq<Post>, field: SortField, descending: bool)
    requires |s| > 0 && Sorted(s, field, descending)
    requires InOrder(KeyOf(field, s[0]), KeyOf(field, x), descending)
    requires Sorted(Insert(x, s[1..], field, descending), field, descending)
    ensures Sorted([s[0]] + Insert(x, s[1..], field, descending), field, descending)
  {
    var rest := s[1..];
    var tail := Insert(x, rest, field, descending);
    assert forall j :: 0 <= j < |rest| ==> rest[j] == s[j + 1];
    InsertKeepsLowerBound(x, rest, field, descending, KeyOf(field, s[0]));
    var r := [s[0]] + tail;
    assert forall i :: 1 <= i < |r| ==> r[i] == tail[i - 1];
  }

  /** In a sorted sequence, nothing after a post that `x` strictly precedes
      shares `x`'s key. */
  lemma KeyAbsentAfterStrictlyGreater(x: Post, s: seq<Post>, field: SortField, descending: bool)
    requires |s| > 0 && Sorted(s, field, descending)
    requires !InOrder(KeyOf(field, s[0]), KeyOf(field, x), descending)
    ensures forall j :: 0 <= j < |s| ==> KeyOf(field, s[j]) != KeyOf(field, x)
  {
    InOrderReflexive(KeyOf(field, x), descending);
    forall j | 0 <= j < |s| ensures KeyOf(field, s[j]) != KeyOf(field, x) {
      if j > 0 {
        assert InOrder(KeyOf(field, s[0]), KeyOf(field, s[j]), descending);
      }
    }
  }

  /** Subsequence of one key after `x` is inserted in front of `s`. */
  lemma InsertStableAtFront(x: Post, s: seq<Post>, field: SortField, descending: bool, k: Key)
    requires |s| > 0 && Sorted(s, field, descending)
    requires !InOrder(KeyOf(field, s[0]), KeyOf(field, x), descending)
    ensures WithKey([x] + s, field, k)
         == WithKey(s, field, k) + (if KeyOf(field, x) == k then [x] else [])
  {
    WithKeyAppend([x], s, field, k);
    assert WithKey([x], field, k) == (if KeyOf(field, x) == k then [x] else []) by {
      assert [x][1..] == [];
    }
    if KeyOf(field, x) == k {
      KeyAbsentAfterStrictlyGreater(x, s, field, descending);
      WithKeyNone(s, field, k);
    }
  }

  lemma SortedTail(s: seq<Post>, field: SortField, descending: bool)
    requires |s| > 0 && Sorted(s, field, descending)
    ensures Sorted(s[1..], field, descending)
  {
  }

  lemma WithKeyCons(y: Post, t: seq<Post>, field: SortField, k: Key)
    ensures WithKey([y] + t, field, k) == (if KeyOf(field, y) == k then [y] else []) + WithKey(t, field, k)
  {
    assert ([y] + t)[1..] == t;
  }

  lemma {:induction false} InsertStable(x: Post, s: seq<Post>, field: SortField, descending: bool, k: Key)
    requires Sorted(s, field, descending)
    ensures WithKey(Insert(x, s, field, descending), field, k)
         == WithKey(s, field, k) + (if KeyOf(field, x) == k then [x] else [])
    decreases |s|
  {
    if |s| == 0 {
      assert Insert(x, s, field, descending) == [x];
      assert [x][1..] == [];
    } else if !InOrder(KeyOf(field, s[0]), KeyOf(field, x), descending) {
      assert Insert(x, s, field, descending) == [x] + s;
      InsertStableAtFront(x, s, field, descending, k);
    } else {
      var tail := Insert(x, s[1..], field, descending);
      assert Insert(x, s, field, descending) == [s[0]] + tail;
      SortedTail(s, field, descending);
      InsertStable(x, s[1..], field, descending, k);
      WithKeyCons(s[0], tail, field, k);
    }
  }

  lemma {:induction false} SortPostsSorted(s: seq<Post>, field: SortField, descending: bool)
    ensures Sorted(SortPosts(s, field, descending), field, descending)
    decreases |s|
  {
    if |s| > 0 {
      SortPostsSorted(s[..|s| - 1], field, descending);
      InsertSorted(s[|s| - 1], SortPosts(s[..|s| - 1], field, descending), field, descending);
    }
  }

  lemma {:induction false} SortPostsPermutes(s: seq<Post>, field: SortField, descending: bool)
    ensures multiset(SortPosts(s, field, descending)) == multiset(s)
    decreases |s|
  {
    if |s| > 0 {
      var init, x := s[..|s| - 1], s[|s| - 1];
      var sortedInit := SortPosts(init, field, descending);
      calc {
        multiset(SortPosts(s, field, descending));
        multiset(Insert(x, sortedInit, field, descending));
        { InsertPermutes(x, sortedInit, field, descending); }
        multiset(sortedInit) + multiset{x};
        { SortPostsPermutes(init, field, descending); }
        multiset(init) + multiset{x};
        { assert s == init + [x]; }
        multiset(s);
      }
    }
  }

  lemma WithKeySingle(x: Post, field: SortField, k: Key)
    ensures WithKey([x], field, k) == if KeyOf(field, x) == k then [x] else []
  {
    assert [x][1..] == [];
  }

  lemma {:induction false} SortPostsStable(s: seq<Post>, field: SortField, descending: bool, k: Key)
    ensures WithKey(SortPosts(s, field, descending), field, k) == WithKey(s, field, k)
    decreases |s|
  {
    if |s| > 0 {
      var init, x := s[..|s| - 1], s[|s| - 1];
      SortPostsStable(init, field, descending, k);
      SortPostsSorted(init, field, descending);
      InsertStable(x, SortPosts(init, field, descending), field, descending, k);
      WithKeyAppend(init, [x], field, k);
      WithKeySingle(x, field, k);
      assert s == init + [x];
    }
  }

  /** Correctness of the sort stage: the result is ordered in the requested
      direction, is a permutation of the input, and keeps posts with equal
      keys in their original relative order, for `desc` as for `asc`. */
  lemma SortPostsCorrect(s: seq<Post>, field: SortField, descending: bool)
    ensures Sorted(SortPosts(s, field, descending), field, descending)
    ensures multiset(SortPosts(s, field, descending)) == multiset(s)
    ensures forall k :: WithKey(SortPosts(s, field, descending), field, k) == WithKey(s, field, k)
  {
    SortPostsSorted(s, field, descending);
    SortPostsPermutes(s, field, descending);
    forall k ensures WithKey(SortPosts(s, field, descending), field, k) == WithKey(s, field, k) {
      SortPostsStable(s, field, descending, k);
    }
  }

  /** The descending sort is not the ascending sort reversed: two posts with
      the same id stay in input order under `desc` as under `asc`. */
  lemma DescendingIsNotReversedAscending(a: Post, b: Post, descending: bool)
    requires a.id == b.id
    ensures SortPosts([a, b], ById, descending) == [a, b]
  {
    assert [a, b][..1] == [a];
    assert [a][..0] == [];
    assert SortPosts([a], ById, descending) == [a];
    assert [a][1..] == [];
    assert InOrder(KeyOf(ById, a), KeyOf(ById, b), descending);
    assert Insert(b, [a], ById, descending) == [a] + Insert(b, [], ById, descending);
    assert SortPosts([a, b], ById, descending) == Insert(b, [a], ById, descending);
  }
}

=== FILE: store.dfy ===
/** The persisted collection. The file itself is not modelled; only the
    state `load_posts` can find it in and how it recovers from each. */
module Store {
  import opened Posts

  /** What `load_posts` finds: no file, an empty file, text that is not
      JSON, or a saved collection. */
  datatype StoredFile = Missing | Blank | Malformed | Saved(posts: seq<Post>)

  datatype Loaded = Loaded(posts: seq<Post>, file: StoredFile)

  /** `load_posts`: a missing file is seeded and written; empty or malformed
      content recovers silently as an empty collection. */
  function Load(file: StoredFile): (r: Loaded)
    ensures file.Missing? ==> r.posts == SeedPosts && r.file == Saved(SeedPosts)
    ensures file.Blank? || file.Malformed? ==> r.posts == [] && r.file == file
    ensures file.Saved? ==> r.posts == file.posts && r.file == file
  {
    match file
    case Missing => Loaded(SeedPosts, Save(SeedPosts))
    case Blank => Loaded([], file)
    case Malformed => Loaded([], file)
    case Saved(posts) => Loaded(posts, file)
  }

  /** `save_posts`: the whole collection replaces whatever was stored. */
  function Save(posts: seq<Post>): StoredFile {
    Saved(posts)
  }

  /** What is saved is what the next load sees, and that load writes nothing. */
  lemma LoadAfterSave(posts: seq<Post>)
    ensures Load(Save(posts)) == Loaded(posts, Save(posts))
  {
  }

  /** Loading again from the state the first load left behind gives the
      same collection: seeding happens at most once. */
  lemma LoadIdempotent(file: StoredFile)
    ensures Load(Load(file).file).posts == Load(file).posts
    ensures Load(Load(file).file).file == Load(file).file
  {
  }
}

=== FILE: text.dfy ===
/** Text helpers shared by the post engine: ASCII lower-casing, the
    code-point ordering Python uses to compare strings, substring search,
    and decimal numerals in both directions. */
module Text {
  import opened Options

  // ---------------------------------------------------------------------------
  // Lower-casing
  // ---------------------------------------------------------------------------

  predicate IsUpper(c: char) {
    'A' <= c <= 'Z'
  }

  /** ASCII lower-casing of one character; every other character is kept. */
  function LowerChar(c: char): (r: char)
    ensures !IsUpper(r)
    ensures !IsUpper(c) ==> r == c
    ensures IsUpper(c) ==> r as int == c as int + 32
  {
    if IsUpper(c) then (c as int + 32) as char else c
  }

  /** `str.lower()` restricted to ASCII. */
  function Lower(s: string): (r: string)
    ensures |r| == |s|
    ensures forall i :: 0 <= i < |r| ==> r[i] == LowerChar(s[i])
  {
    seq(|s|, i requires 0 <= i < |s| => LowerChar(s[i]))
  }

  /** Lower-casing twice is lower-casing once, so a lowered search term
      matches a lowered field exactly as the handler compares them. */
  lemma LowerIdempotent(s: string)
    ensures Lower(Lower(s)) == Lower(s)
  {
  }

  // ---------------------------------------------------------------------------
  // Python's string ordering: lexicographic on code points
  // ---------------------------------------------------------------------------

  /** `a <= b` on Python strings. */
  predicate LexLe(a: string, b: string)
    decreases |a|
  {
    if |a| == 0 then true
    else if |b| == 0 then false
    else if a[0] != b[0] then a[0] < b[0]
    else LexLe(a[1..], b[1..])
  }

  lemma {:induction false} LexLeReflexive(a: string)
    ensures LexLe(a, a)
    decreases |a|
  {
    if |a| > 0 {
      LexLeReflexive(a[1..]);
    }
  }

  lemma {:induction false} LexLeTotal(a: string, b: string)
    ensures LexLe(a, b) || LexLe(b, a)
    decreases |a|
  {
    if |a| > 0 && |b| > 0 && a[0] == b[0] {
      LexLeTotal(a[1..], b[1..]);
    }
  }

  lemma {:induction false} LexLeTransitive(a: string, b: string, c: string)
    requires LexLe(a, b) && LexLe(b, c)
    ensures LexLe(a, c)
    decreases |a|
  {
    if |a| > 0 && |b| > 0 && |c| > 0 && a[0] == b[0] && b[0] == c[0] {
      LexLeTransitive(a[1..], b[1..], c[1..]);
    }
  }

  lemma {:induction false} LexLeAntisymmetric(a: string, b: string)
    requires LexLe(a, b) && LexLe(b, a)
    ensures a == b
    decreases |a|
  {
    if |a| > 0 && |b| > 0 {
      LexLeAntisymmetric(a[1..], b[1..]);
      assert a == [a[0]] + a[1..] && b == [b[0]] + b[1..];
    }
  }

  /** An independent description of the same ordering: `a` is a prefix of
      `b`, or the first position where they differ holds a smaller
      character in `a`. */
  ghost predicate LexLeByFirstDifference(a: string, b: string) {
    (|a| <= |b| && a == b[..|a|])
    || exists i :: FirstDifferenceBelow(a, b, i)
  }

  ghost predicate FirstDifferenceBelow(a: string, b: string, i: int) {
    0 <= i < |a| && i < |b| && a[..i] == b[..i] && a[i] < b[i]
  }

  lemma {:induction false} LexLeCharacterised(a: string, b: string)
    ensures LexLe(a, b) <==> LexLeByFirstDifference(a, b)
    decreases |a|
  {
    if |a| == 0 {
    } else if |b| == 0 {
      assert !(exists i :: FirstDifferenceBelow(a, b, i));
    } else if a[0] != b[0] {
      if a[0] < b[0] {
        assert FirstDifferenceBelow(a, b, 0);
      } else {
        assert !(exists i :: FirstDifferenceBelow(a, b, i));
      }
    } else {
      LexLeCharacterised(a[1..], b[1..]);
      var a', b' := a[1..], b[1..];
      if |a'| <= |b'| && a' == b'[..|a'|] {
        assert a == b[..|a|] by {
          assert a == [a[0]] + a' && b[..|a|] == [b[0]] + b'[..|a'|];
        }
      }
      if |a| <= |b| && a == b[..|a|] {
        assert a' == b'[..|a'|];
      }
      forall i | FirstDifferenceBelow(a', b', i)
        ensures FirstDifferenceBelow(a, b, i + 1)
      {
        assert a[..i + 1] == [a[0]] + a'[..i] && b[..i + 1] == [b[0]] + b'[..i];
      }
      forall i | FirstDifferenceBelow(a, b, i)
        ensures i >= 1 && FirstDifferenceBelow(a', b', i - 1)
      {
        assert a'[..i - 1] == a[..i][1..] && b'[..i - 1] == b[..i][1..];
      }
    }
  }

  // ---------------------------------------------------------------------------
  // Substring search (Python's `needle in hay`)
  // ---------------------------------------------------------------------------

  ghost predicate OccursAt(hay: string, needle: string, i: int) {
    0 <= i && i + |needle| <= |hay| && hay[i..i + |needle|] == needle
  }

  predicate Contains(hay: string, needle: string)
    decreases |hay|
  {
    if |needle| <= |hay| && hay[..|needle|] == needle then true
    else if |hay| == 0 then false
    else Contains(hay[1..], needle)
  }

  /** `Contains` finds `needle` exactly when it occurs at some position. */
  lemma {:induction false} ContainsIff(hay: string, needle: string)
    ensures Contains(hay, needle) <==> exists i :: OccursAt(hay, needle, i)
    decreases |hay|
  {
    if |needle| <= |hay| && hay[..|needle|] == needle {
      assert OccursAt(hay, needle, 0);
    } else if |hay| == 0 {
      assert !(exists i :: OccursAt(hay, needle, i));
    } else {
      ContainsIff(hay[1..], needle);
      forall i | OccursAt(hay[1..], needle, i) ensures OccursAt(hay, needle, i + 1) {
        assert hay[1..][i..i + |needle|] == hay[i + 1..i + 1 + |needle|];
      }
      forall i | OccursAt(hay, needle, i) ensures i >= 1 && OccursAt(hay[1..], needle, i - 1) {
        assert i != 0;
        assert hay[1..][i - 1..i - 1 + |needle|] == hay[i..i + |needle|];
      }
    }
  }

  // ---------------------------------------------------------------------------
  // Decimal numerals
  // ---------------------------------------------------------------------------

  predicate IsDigit(c: char) {
    '0' <= c <= '9'
  }

  predicate AllDigits(s: string) {
    forall i :: 0 <= i < |s| ==> IsDigit(s[i])
  }

  function DigitValue(c: char): (r: nat)
    requires IsDigit(c)
    ensures r < 10
  {
    c as int - '0' as int
  }

  function DigitChar(d: nat): (r: char)
    requires d < 10
    ensures IsDigit(r) && DigitValue(r) == d
  {
    ('0' as int + d) as char
  }

  /** The value of a string of decimal digits, most significant first. */
  function DigitsValue(s: string): nat
    requires AllDigits(s)
    decreases |s|
  {
    if |s| == 0 then 0 else DigitsValue(s[..|s| - 1]) * 10 + DigitValue(s[|s| - 1])
  }

  /** Python's `str(n)` / f-string rendering of a non-negative integer. */
  function NatToString(n: nat): (r: string)
    ensures |r| > 0 && AllDigits(r)
    decreases n
  {
    if n < 10 then [DigitChar(n)] else NatToString(n / 10) + [DigitChar(n % 10)]
  }

  /** Reading back a rendered number gives the number. */
  lemma {:induction false} NatToStringValue(n: nat)
    ensures DigitsValue(NatToString(n)) == n
    decreases n
  {
    if n >= 10 {
      NatToStringValue(n / 10);
      var s := NatToString(n);
      assert s[..|s| - 1] == NatToString(n / 10);
    }
  }

  lemma NatToStringInjective(m: nat, n: nat)
    requires NatToString(m) == NatToString(n)
    ensures m == n
  {
    NatToStringValue(m);
    NatToStringValue(n);
  }

  /** The literals `int()` accepts here: an optional sign, then one or more
      ASCII digits. */
  predicate IsIntLiteral(s: string) {
    if |s| > 0 && (s[0] == '-' || s[0] == '+') then |s| > 1 && AllDigits(s[1..])
    else |s| > 0 && AllDigits(s)
  }

  /** Python's `int(s)` on a query-string value; `None` stands for the
      `ValueError` it raises. */
  function ParseInt(s: string): (r: Option<int>)
    ensures r.Some? <==> IsIntLiteral(s)
    ensures r.Some? && s[0] == '-' ==> r.value <= 0
    ensures r.Some? && s[0] != '-' ==> r.value >= 0
  {
    if |s| > 0 && (s[0] == '-' || s[0] == '+') then
      if |s| > 1 && AllDigits(s[1..]) then
        var magnitude: int := DigitsValue(s[1..]);
        Some(if s[0] == '-' then -magnitude else magnitude)
      else None
    else if |s| > 0 && AllDigits(s) then Some(DigitsValue(s))
    else None
  }

  /** `int(str(n)) == n`. */
  lemma ParseIntOfNatToString(n: nat)
    ensures ParseInt(NatToString(n)) == Some(n)
  {
    NatToStringValue(n);
    assert IsDigit(NatToString(n)[0]);
  }

  /** A negative sign in front of a numeral parses to its negation. */
  lemma ParseIntOfNegated(n: nat)
    ensures ParseInt("-" + NatToString(n)) == Some(-(n as int))
  {
    NatToStringValue(n);
    assert ("-" + NatToString(n))[1..] == NatToString(n);
  }
}
